=== FILE: README.md ===
# Single-channel LoRa packet forwarder — Dafny model

This project models the core of `single_chan_pkt_fwd`, a gateway that connects
one SX1272 or SX1276 LoRa transceiver to UDP collectors speaking the gateway
PUSH_DATA protocol. It covers these parts:

- **Register bus** (`register_bus.dfy`): the two-byte SPI frame of each register
  access. A read sends `addr & 0x7F`; a write sends `addr | 0x80`. An abstract
  transceiver holds 128 registers, indexed by the 7-bit address, and the
  256-byte packet FIFO.
- **SetupLoRa** (`setup.dfy`): chip detection (`0x22` means SX1272; otherwise the
  chip is reset and `0x12` means SX1276; anything else is fatal). The result is
  the ordered list of register writes that set the frequency, sync word, modem
  configuration, symbol timeout, payload limits, FIFO pointer, LNA gain and
  continuous-receive mode.
- **ReceivePkt** (`receive.dfy`): clears RxDone and tests the CRC-error flag.
  It updates the `uint32_t` counters and reads exactly `REG_RX_NB_BYTES` bytes
  from the FIFO, starting at `REG_FIFO_RX_CURRENT_ADDR`.
- **Link quality** (`quality.dfy`): SNR from `REG_PKT_SNR_VALUE`, and RSSI from
  register 0x1A minus 139 (SX1272) or 157 (SX1276).
- **Gateway protocol** (`protocol.dfy`):
  - the 12-byte PUSH_DATA header: version 1, token, type 0, then the MAC with `FF FF` in the middle;
  - the `datr` string `SF<n>BW<bw>`, truncated to its 9-character buffer;
  - the fields of the `rxpk` and `stat` JSON objects.
- **SendUdp** (`transport.dfy`): one datagram per enabled server, in
  configuration order. A failed `getaddrinfo` or `sendto` ends the process.
- **Main loop** (`gateway.dfy`): `Receivepacket`, then the 5-second statistics
  check in 32-bit arithmetic. After each report the interval counters are reset;
  the lifetime count of accepted frames is not.

Environment inputs are parameters:
- the DIO0 level;
- the transceiver's registers and FIFO at each poll;
- the two version-register answers during setup;
- the `rand()` tokens and the clock readings;
- name resolution and the socket;
- the JSON/base64 serializer.

The transceiver model makes three assumptions about the SX127x register file.
The program relies on them without spelling them out (its `// clear rxDone`
write of 0x40 to `REG_IRQ_FLAGS` presumes the first):
- `REG_IRQ_FLAGS` is write-one-to-clear;
- reading or writing `REG_FIFO` moves the 8-bit FIFO pointer (register 0x0D) on by one;
- every other write stores its value.

The program behaves as follows where one might assume otherwise:
- The frequency word is `(freq << 19) / 32000000`, truncated, not rounded. For
  868.1 MHz it gives `D9 06 66`.
- With the sign bit set, SNR negates the whole byte (`(~v + 1) & 0xFF`), not
  only its low seven bits. So `0x80` gives -32, and the SNR lies in [-32, 31].
- The symbol timeout is 0x05 only for SF10, SF11 and SF12, and 0x08 for every
  other value, including out-of-range spreading factors.
- The frames-forwarded counter `cp_up_pkt_fwd` is never incremented. Every
  statistics report therefore gives `rxfw` = 0 (`Gateway.Run`).
- `lasttime` is never initialised, so the first report time is arbitrary. It is
  a parameter of `Gateway.Start`.

## Model

| member | source | states |
|---|---|---|
| RegisterBus.FrameRoundTrip | single_chan_pkt_fwd.cpp:209-231 | The transceiver decodes every read frame as a read and every write frame as a write, of the same register on its 7-bit address. Write frames, and only they, have the top bit set. |
| RegisterBus.DecodeRoundTrip | single_chan_pkt_fwd.cpp:209-231 | Every frame, with a zero data byte on reads, is exactly the frame the driver issues for the access it decodes to. |
| RegisterBus.ReadFrame | single_chan_pkt_fwd.cpp:209-220 | A read frame has bit 7 of its header clear and a zero data byte, and the transceiver decodes it as a read of the 7-bit address. |
| RegisterBus.WriteFrame | single_chan_pkt_fwd.cpp:222-231 | A write frame has bit 7 of its header set, and the transceiver decodes it as a write of the value to the 7-bit address. |
| Setup.FrequencyWord | single_chan_pkt_fwd.cpp:319 | The frequency word is the floor of freq·2^19/32 MHz: it is at most the exact quotient and within one step of it. |
| Setup.FrequencyWrites | single_chan_pkt_fwd.cpp:320-322 | The three writes go to FRF_MSB, FRF_MID and FRF_LSB, in that order. Their bytes recompose to the frequency word modulo 2^24. |
| Setup.FrfBytesRecompose | single_chan_pkt_fwd.cpp:320-322 | The truncated `frf>>16`, `frf>>8` and `frf` bytes, weighted 2^16, 2^8 and 1, sum to `frf mod 2^24`. |
| Setup.Detect | single_chan_pkt_fwd.cpp:284-313 | An unset NSS or DIO0 pin is fatal. Otherwise the chip is an SX1272 iff the first version read is 0x22. It is an SX1276 iff the first read is not 0x22 and the read after the second reset is 0x12. Any other answer is fatal and reports the second reading. |
| Setup.SetupLoRa | single_chan_pkt_fwd.cpp:274-356 | Setup succeeds exactly when detection does, and a fatal result issues no write. On success: sleep is the first write; no other mode change follows until max LNA gain and then RX-continuous, which come last. Writes 1 to 3 are FRF_MSB, FRF_MID and FRF_LSB, whose bytes recompose to the frequency word; write 4 is the public sync word 0x34; the FIFO pointer is set to the receive-base address that was read. There are 14 writes on an SX1272 and 15 on an SX1276. |
| Setup.HeadTailAddresses | single_chan_pkt_fwd.cpp:316-355 | Before the modem block the configuration writes only OPMODE, the three FRF registers and the sync word. After it, only the symbol timeout, the payload limits, the hop period, the FIFO pointer, LNA and OPMODE. |
| Setup.ModemWriteIn | single_chan_pkt_fwd.cpp:326-341 | A write to MODEM_CONFIG, MODEM_CONFIG2 or MODEM_CONFIG3 appears in a successful setup iff it is one of the variant's modem writes. |
| Setup.SymbolTimeoutWriteIn | single_chan_pkt_fwd.cpp:343-350 | A write to SYMB_TIMEOUT_LSB, MAX_PAYLOAD_LENGTH, PAYLOAD_LENGTH or HOP_PERIOD appears in a successful setup iff it is in the common tail of writes. |
| Setup.PayloadAndHopWrites | single_chan_pkt_fwd.cpp:348-350 | In a successful setup MAX_PAYLOAD_LENGTH is written 0x80, PAYLOAD_LENGTH 0x40 and HOP_PERIOD 0xFF, and no other value is ever written to those three registers. |
| Setup.WritesOnlyConfigRegisters | single_chan_pkt_fwd.cpp:316-355 | Every write of a successful setup addresses one of the fourteen registers the configuration names: OPMODE, the FRF bytes, the sync word, the three modem configuration registers, the symbol timeout, the payload limits, the hop period, the FIFO pointer and the LNA. |
| Setup.ConfigWritesShape | single_chan_pkt_fwd.cpp:316-355 | The write sequence has 14 writes for the SX1272 and 15 for the SX1276. Writes 1 to 3 are the frequency writes, write 4 is the sync word 0x34, and the FIFO pointer write to the receive base is among them. |
| Setup.ConfigWritesModes | single_chan_pkt_fwd.cpp:316-354 | The write sequence puts the chip to sleep first, changes OPMODE nowhere else until the end, and finishes with max LNA gain and then continuous receive. |
| Setup.ConfigHead | single_chan_pkt_fwd.cpp:316-324 | The head has five writes: sleep, then the three frequency writes for the configured frequency, then the LoRaWAN public sync word 0x34. |
| Setup.ModemWrites | single_chan_pkt_fwd.cpp:326-341 | The modem block has two writes on the SX1272 and three on the SX1276. They touch only MODEM_CONFIG, MODEM_CONFIG2 and MODEM_CONFIG3, and the last one is MODEM_CONFIG2 = sf·16 + 4 as a byte. |
| Setup.SymbolTimeout | single_chan_pkt_fwd.cpp:343-347 | The symbol timeout is 0x05 or 0x08, and it is 0x05 exactly for SF10, SF11 and SF12. |
| Setup.ConfigTail | single_chan_pkt_fwd.cpp:343-355 | The tail has seven writes: the symbol timeout, MAX_PAYLOAD_LENGTH 0x80, PAYLOAD_LENGTH 0x40, HOP_PERIOD 0xFF, the FIFO pointer set to the receive base, then max LNA gain and continuous receive. |
| Setup.LowDataRateOptimizeIff | single_chan_pkt_fwd.cpp:326-341 | On both variants the low-data-rate-optimize bit is set iff SF is 11 or 12. It is bit 0 of MODEM_CONFIG on the SX1272 and bit 3 of MODEM_CONFIG3 on the SX1276. |
| Setup.ModemConfigSx1272 | single_chan_pkt_fwd.cpp:326-332 | SX1272: MODEM_CONFIG gets 0x0B iff SF is 11 or 12, and 0x0A iff not. MODEM_CONFIG2 gets `(sf << 4) or 0x04` as a byte. |
| Setup.ModemConfigSx1276 | single_chan_pkt_fwd.cpp:333-341 | SX1276: MODEM_CONFIG3 gets 0x0C iff SF is 11 or 12, and 0x04 iff not. MODEM_CONFIG gets 0x72 and MODEM_CONFIG2 gets `(sf << 4) or 0x04`. |
| Setup.SymbolTimeoutBySf | single_chan_pkt_fwd.cpp:343-347 | SYMB_TIMEOUT_LSB is written 0x05 iff SF is 10, 11 or 12, and 0x08 iff it is not. |
| Setup.ModemConfig2Fields | single_chan_pkt_fwd.cpp:332 | For SF7 to SF12 the upper nibble of MODEM_CONFIG2 is the spreading factor and the lower nibble is 0x4. |
| Setup.Frequency868 | single_chan_pkt_fwd.cpp:319-322 | At 868100000 Hz the FRF writes are 0xD9, 0x06, 0x66. These are the FRF_MSB/MID/LSB constants of lines 173-175. |
| Setup.FrequencyBytes868 | single_chan_pkt_fwd.cpp:319-322 | At 868100000 Hz the three frequency writes are exactly FRF_MSB=0xD9, FRF_MID=0x06, FRF_LSB=0x66. |
| Setup.SecondProbeOnlyAfterMismatch | single_chan_pkt_fwd.cpp:293-306 | When the first version read is 0x22, the second read has no influence on the outcome. |
| Quality.Snr | single_chan_pkt_fwd.cpp:501-509 | The SNR lies in [-32, 31]. It is negative only when the raw byte has its sign bit set. |
| Quality.SnrIsTruncatedQuarter | single_chan_pkt_fwd.cpp:501-509 | The SNR is the raw byte read as two's complement, divided by 4 with truncation toward zero. |
| Quality.SnrExamples | single_chan_pkt_fwd.cpp:502-508 | 0x05 gives 1, 0x84 gives -31, 0x80 gives -32, 0xFF gives 0 and 0x7F gives 31. |
| Quality.Rssi | single_chan_pkt_fwd.cpp:582 | The reported RSSI plus the variant's correction gives back the raw register byte. Its range is [-139, 116] on the SX1272 and [-157, 98] on the SX1276. |
| Quality.RssiInjectiveAndOffset | single_chan_pkt_fwd.cpp:511 | Distinct raw readings give distinct RSSI values. For the same byte, the SX1276 value is 18 dB below the SX1272 value. |
| Quality.RssiExamples | single_chan_pkt_fwd.cpp:582 | Raw 100 gives -39 on the SX1272 and -57 on the SX1276. |
| Receive.FifoWindow | single_chan_pkt_fwd.cpp:259-261 | The payload has exactly n bytes, and byte j is the FIFO byte at (start + j) mod 256. |
| Receive.ReadRegister | single_chan_pkt_fwd.cpp:209-220 | A read returns the register, or the byte under the FIFO pointer for REG_FIFO. It appends one read access to the bus trace, and the transceiver stays consistent with the trace. |
| Receive.WriteRegister | single_chan_pkt_fwd.cpp:222-231 | A write appends one write access to the bus trace, and the transceiver stays consistent with the trace. |
| Receive.ReadFifo | single_chan_pkt_fwd.cpp:259-261 | n reads of REG_FIFO return the n FIFO bytes from the pointer on and advance the pointer by n mod 256. No register other than the pointer changes. |
| Receive.ReceivePkt | single_chan_pkt_fwd.cpp:233-264 | No frame is returned iff the CRC-error flag is set (a frame is returned exactly when it is clear). The bus accesses are exactly: write 0x40 to IRQ_FLAGS and read it back; then either write 0x20 to IRQ_FLAGS, or read RX_CURRENT_ADDR and RX_NB_BYTES, set the FIFO pointer to the start and read RX_NB_BYTES FIFO bytes. `rxnb` always moves by one; `rxok` and the lifetime count move only for an accepted frame. Afterwards RxDone and the CRC flag are clear, and no register other than the flags and the pointer has changed. An accepted frame is exactly the FIFO bytes from the start address on, and the returned chip is the input chip after the returned trace. |
| Receive.ReadPayload | single_chan_pkt_fwd.cpp:252-261 | The accepted-frame path reads RX_CURRENT_ADDR and RX_NB_BYTES, then points the FIFO at the start. It returns exactly that many FIFO bytes from there and changes only the pointer register. |
| Receive.FifoWindowStep | single_chan_pkt_fwd.cpp:259-261 | Reading one more FIFO byte appends the byte at (start + n) mod 256 to the window. |
| Protocol.GatewayId | single_chan_pkt_fwd.cpp:531-538 | The 8-byte gateway identifier is mac0..mac2, 0xFF, 0xFF, mac3..mac5. |
| Protocol.EncodeHeader | single_chan_pkt_fwd.cpp:522-545 | The PUSH_DATA header is 12 bytes long. |
| Protocol.PushData | single_chan_pkt_fwd.cpp:597-599 | A datagram is 12 plus the body length bytes long. Byte 0 is 1 (PROTOCOL_VERSION) and byte 3 is 0 (PKT_PUSH_DATA). Bytes 4..11 are the gateway identifier, and the body follows unchanged. |
| Protocol.PushDataRoundTrip | single_chan_pkt_fwd.cpp:410-427 | A collector parsing a PUSH_DATA datagram recovers exactly the token, the MAC and the body. |
| Protocol.ParsePushDataSound | single_chan_pkt_fwd.cpp:410-427 | Every datagram the parser accepts is exactly the encoding of what it parsed. |
| Protocol.Decimal | single_chan_pkt_fwd.cpp:577 | `%u` text is a non-empty digit string with no leading zero unless it is "0", of at most 1, 2 or 3 digits below 10, 100 or 1000. |
| Protocol.DecimalRoundTrip | single_chan_pkt_fwd.cpp:577 | Reading the decimal text back gives the number. |
| Protocol.ParseDatrOf | single_chan_pkt_fwd.cpp:576-577 | Any text `SF<digits>BW<digits>` with both digit runs non-empty parses to the two numbers those runs spell. |
| Protocol.Datr | single_chan_pkt_fwd.cpp:576-577 | The data-rate string is a prefix of `SF<sf mod 256>BW<bw>`. It is the whole text whenever that fits in 9 characters, and exactly its first 9 characters otherwise, as `snprintf` into the 10-byte buffer keeps. |
| Protocol.DatrRoundTrip | single_chan_pkt_fwd.cpp:576-577 | For SF7 to SF12 and a bandwidth below 1000, nothing is truncated, and parsing `SF<n>BW<m>` gives back (sf, bw). |
| Protocol.DatrExamples | single_chan_pkt_fwd.cpp:576-577 | The strings are "SF7BW125" and "SF12BW125". SF100 is cut to "SF100BW12". |
| Protocol.DecimalExamples | single_chan_pkt_fwd.cpp:577 | `%u` prints 7, 12, 100 and 125 as "7", "12", "100" and "125". |
| Protocol.Tmst | single_chan_pkt_fwd.cpp:550 | `tmst` is the microsecond timestamp modulo 2^32. |
| Protocol.UplinkFields | single_chan_pkt_fwd.cpp:559-591 | `size` equals the length of `data`, which is the frame itself, so a zero-length frame has size 0 and empty data. `freq` is the configured frequency; `tmst`, `rssi` and `lsnr` are the given timestamp and link figures. `chan` and `rfch` are 0, `stat` is 1, `modu` is "LORA", `codr` is "4/5", and `datr` is the data-rate string. |
| Protocol.StatFields | single_chan_pkt_fwd.cpp:436-466 | `rxnb`, `rxok` and `rxfw` are the interval counters for frames seen, accepted and forwarded. `ackr`, `dwnb` and `txnb` are 0. `time` is the given formatted time, and `alti`, `pfrm`, `mail` and `desc` are the configured altitude, platform, e-mail and description. |
| Transport.EnabledServers | single_chan_pkt_fwd.cpp:390-391 | The servers kept are exactly the enabled members of the list: every kept server is enabled and listed, and every enabled listed server is kept. |
| Transport.EnabledServersAppend | single_chan_pkt_fwd.cpp:390-391 | Filtering keeps list order: the enabled servers of `a + b` are those of `a` followed by those of `b`. |
| Transport.Resolved | single_chan_pkt_fwd.cpp:358-386 | After resolving a server the port is the server's; the address is the last `getaddrinfo` result, or stays as it was when there is none. |
| Transport.SendUdp | single_chan_pkt_fwd.cpp:388-400 | Every datagram sent carries the whole message. No more datagrams are sent than hosts are looked up. |
| Transport.SendLookups | single_chan_pkt_fwd.cpp:388-400 | The hosts looked up are a prefix of the enabled servers' hosts. Without an error it is all of them and each was sent a datagram; after an error, exactly the last one looked up was not. |
| Transport.SendPorts | single_chan_pkt_fwd.cpp:388-400 | The datagrams' ports, in order, are a prefix of the enabled servers' ports. |
| Transport.SendOnlyToEnabled | single_chan_pkt_fwd.cpp:388-400 | The hosts looked up are a prefix of the enabled servers' hosts, in list order, so a disabled server is never resolved. Datagram i goes to enabled server i's port. Without an error every enabled server was served; a fatal error stops at the server being served. |
| Transport.SendReachable | single_chan_pkt_fwd.cpp:388-400 | If every enabled server resolves and accepts, there is no error. Exactly one datagram goes to each enabled server, in order, at the last resolved address. |
| Transport.SendExample | single_chan_pkt_fwd.cpp:388-400 | With servers A (on), B (off) and C (on), A and C are looked up and sent to, in that order; B is never looked up. |
| Gateway.Start | single_chan_pkt_fwd.cpp:628-641 | Start-up succeeds exactly when SetupLoRa does. It then runs with the detected variant, all counters zero, the zeroed socket address of the `memset`, and the given `lasttime`. |
| Gateway.StatSpacing | single_chan_pkt_fwd.cpp:676-678 | After a report at time t, no report is due at t+1 to t+4, and one is due at t+5, in 32-bit arithmetic across the wrap too. |
| Gateway.StatDue | single_chan_pkt_fwd.cpp:676-677 | A report is due when the clock is at least five seconds past `lasttime`, counting the difference modulo 2^32 when the clock has wrapped below `lasttime`. |
| Gateway.StatDueAcrossWrap | single_chan_pkt_fwd.cpp:676-677 | A clock reading below `lasttime` still triggers a report when the difference modulo 2^32 is at least 5. |
| Gateway.ResetInterval | single_chan_pkt_fwd.cpp:681-683 | After a report `rxnb`, `rxok` and `rxfw` counters are zero and the lifetime accepted count is unchanged. |
| Gateway.Receivepacket | single_chan_pkt_fwd.cpp:488-605 | With DIO0 low nothing changes and nothing is sent. With DIO0 high the counters move as ReceivePkt counts the frame (the reference `Polled`). An uplink is produced iff the CRC flag is clear. It is exactly the `rxpk` record of the FIFO frame: its SNR and RSSI registers, the configured frequency and data rate, `tmst` from the reception clock, and the fixed chan 0, rfch 0, stat 1, "LORA" and "4/5". When there is an uplink, the datagrams sent, the fatal error and the socket address left behind are exactly those of SendUdp of its PUSH_DATA datagram (the reference `UplinkMessage`: this gateway's header with the uplink token and the serialized uplink; the whole outcome is the reference `Forwarded`) to the configured servers; without one nothing is sent. |
| Gateway.Step | single_chan_pkt_fwd.cpp:669-684 | A statistics report is made only when due, and always when due unless the uplink send was fatal. Unless the pass is fatal, the counters after it are the post-poll counters with `rxnb`, `rxok` and `rxfw` zeroed if a report was due, and the post-poll counters unchanged otherwise. The uplink is exactly the `rxpk` record of the polled frame (`UplinkOf`). The report is exactly the `stat` record of the post-poll counters: their `rxnb`, `rxok` and pre-reset `rxfw`, the formatted time, `ackr`, `dwnb` and `txnb` 0, and the configured altitude, platform, e-mail and description. The datagrams are the uplink send followed by SendUdp of the statistics PUSH_DATA datagram (the reference `StatMessage`: this gateway's header with the statistics token and the serialized report) to the configured servers, and `lasttime` becomes now. The lifetime count grows by one per uplink and is never reset. |
| Gateway.Advance | single_chan_pkt_fwd.cpp:669-684 | Unless the pass is fatal, it adds a report exactly when one is due, and then moves `lasttime` to the clock; otherwise `lasttime` stays. A report added is the `stat` record of the post-poll counters, so its `rxfw` is the counter before the pass. It adds exactly one uplink, the one built from the polled transceiver, when the poll finds a CRC-clean frame, and none otherwise. It keeps the run invariant: the forwarded counter stays 0 and the lifetime count equals the number of uplinks modulo 2^32. |
| Gateway.AcceptedUplinksStep | single_chan_pkt_fwd.cpp:236-250 | One more pass appends its uplink to the reference list `AcceptedUplinks` exactly when DIO0 was high and the CRC flag was clear, and appends nothing otherwise. |
| Bytes.Inc32Succ | single_chan_pkt_fwd.cpp:250 | Incrementing a `uint32_t` count of n gives the `uint32_t` count of n + 1, so a counter incremented once per event holds the number of events modulo 2^32. |
| Gateway.UplinkOf | single_chan_pkt_fwd.cpp:559-591 | The uplink of a polled frame has `size` equal to its data length. |
| Gateway.Run | single_chan_pkt_fwd.cpp:669-695 | Every pass runs until the ticks run out or a pass is fatal: without a fatal exit all passes run, and with one it ends the run after at least one pass. The uplinks are exactly the reference `AcceptedUplinks` of the passes run: one `rxpk` record per pass whose poll found a CRC-clean frame, in order. Without a fatal exit the number of reports is the reference `DueReports`: the number of passes whose clock is due against `lasttime`, which each report moves on. Every report has `rxfw` = 0, because the forwarded counter is never incremented. The lifetime accepted count equals the number of uplinks modulo 2^32. Every uplink's `size` equals its data length. |

## Left out

- SPI and GPIO (`wiringPiSPIDataRW`, `digitalWrite`, `digitalRead`, `delay`, chip-select toggling, reset pulse timing): they are hardware. The register bus is modelled as frames and an abstract register file; DIO0 is an input.
- `LoadConfiguration`, `PrintConfiguration`, `PinName`: configuration parsing and printing. The configuration is a `Config` value.
- The JSON text and `bin_to_b64` come from external libraries. They are the `Serializer` parameter. Buffer sizes (`BASE64_MAX_LENGTH`, `TX_BUFF_SIZE`, `STATUS_SIZE`) are therefore not checked.
- Floating point: latitude and longitude, `freq / 1000000` and `ackr` as doubles. The model keeps the frequency in Hz and `ackr` as 0.
- `socket`, `setsockopt` and the `SIOCGIFHWADDR` MAC lookup, including its `sscanf` override: these are I/O, and the MAC is part of the configuration. `getaddrinfo` and `sendto` are the `Network` parameter.
- `time`, `strftime`, `gettimeofday` and `rand`: they are environment inputs of each `Tick`.
- The `printf` and `fflush` logging, and the message and exit code of `Die`. A fatal exit is a `fatal` outcome.
- `cp_nb_rx_bad` and `cp_nb_rx_nocrc` are declared but never used. The commented-out `recvfrom` downlink code is not modelled.
- Gateway.Receivepacket: the SNR and RSSI are computed directly from the polled transceiver's registers, as reads with no side effect; the transceiver state after the poll is not carried to the next pass, since each pass supplies its own.
- Gateway.Run: covers a finite sequence of loop passes; the program's loop never ends.
- Setup.ModemConfig2Fields: states the nibble layout only for SF7 to SF12. For larger values the model wraps `sf << 4` modulo 256, where C's `int` shift would overflow for `sf >= 2^27`.

=== FILE: bytes.dfy ===
/** Machine integers of the forwarder, as bounded mathematical integers.
    Conversions that the C code performs implicitly (a cast to uint8_t, unsigned
    32-bit wrap-around, a bit test with a one-bit mask) are written out here. */
module Bytes {

  type byte = x: int | 0 <= x < 0x100
  type uint16 = x: int | 0 <= x < 0x1_0000
  type uint32 = x: int | 0 <= x < 0x1_0000_0000

  const UINT32_MODULUS: int := 0x1_0000_0000

  /** The value an `int` takes when stored into a `uint8_t` (two's-complement
      truncation; Dafny's `%` never yields a negative remainder). */
  function ToByte(x: int): (b: byte)
    ensures 0 <= x < 0x100 ==> b == x
    ensures (x - b) % 0x100 == 0
  {
    x % 0x100
  }

  /** Incrementing a stored byte wraps like incrementing before the store. */
  lemma ToByteSucc(x: int)
    ensures ToByte(ToByte(x) + 1) == ToByte(x + 1)
  {
  }

  /** The value an `int` takes when stored into a `uint32_t`. */
  function ToUint32(x: int): (u: uint32)
    ensures 0 <= x < UINT32_MODULUS ==> u == x
    ensures (x - u) % UINT32_MODULUS == 0
  {
    x % UINT32_MODULUS
  }

  /** `x++` on a `uint32_t` counter. */
  function Inc32(x: uint32): (r: uint32)
    ensures x < UINT32_MODULUS - 1 ==> r == x + 1
    ensures x == UINT32_MODULUS - 1 ==> r == 0
  {
    ToUint32(x + 1)
  }

  /** Incrementing a 32-bit count of n gives the 32-bit count of n + 1. */
  lemma Inc32Succ(n: nat)
    ensures Inc32(ToUint32(n)) == ToUint32(n + 1)
  {
  }

  /** `a - b` on two `uint32_t` values. */
  function Sub32(a: uint32, b: uint32): (r: uint32)
    ensures (r + b) % UINT32_MODULUS == a
  {
    ToUint32(a - b)
  }

  /** Bit `k` of `x` (bit 0 is the least significant). */
  predicate Bit(x: nat, k: nat)
  {
    if k == 0 then x % 2 == 1 else Bit(x / 2, k - 1)
  }

  /** `x & ~m`: the bits of `x` that are not set in `m`. */
  function AndNot(x: nat, m: nat): nat
  {
    if x == 0 then 0
    else 2 * AndNot(x / 2, m / 2) + (if x % 2 == 1 && m % 2 == 0 then 1 else 0)
  }

  lemma {:induction false} BitOfZero(k: nat)
    ensures !Bit(0, k)
  {
    if k > 0 {
      BitOfZero(k - 1);
    }
  }

  /** Clearing the bits of a mask keeps exactly the other bits. */
  lemma {:induction false} AndNotBits(x: nat, m: nat, k: nat)
    ensures Bit(AndNot(x, m), k) == (Bit(x, k) && !Bit(m, k))
  {
    if x == 0 {
      BitOfZero(k);
    } else if k > 0 {
      var q := AndNot(x / 2, m / 2);
      assert AndNot(x, m) / 2 == q;
      AndNotBits(x / 2, m / 2, k - 1);
    }
  }

  /** Clearing bits never makes a value larger, so a byte stays a byte. */
  lemma {:induction false} AndNotBound(x: nat, m: nat)
    ensures AndNot(x, m) <= x
  {
    if x > 0 {
      AndNotBound(x / 2, m / 2);
    }
  }

  /** `x & ~m` on two bytes. */
  function ClearBits(x: byte, m: byte): (r: byte)
    ensures forall k: nat :: Bit(r, k) == (Bit(x, k) && !Bit(m, k))
  {
    AndNotBound(x, m);
    forall k: nat ensures Bit(AndNot(x, m), k) == (Bit(x, k) && !Bit(m, k)) {
      AndNotBits(x, m, k);
    }
    AndNot(x, m)
  }
}

=== FILE: gateway.dfy ===
/** The forwarder's main loop: poll the transceiver, forward each accepted
    frame as an uplink datagram, and every five seconds send a statistics
    datagram and start a new counting interval. */
module Gateway {
  import opened Bytes
  import opened Wrappers
  import opened Registers
  import opened RegisterBus
  import opened Setup
  import opened Quality
  import opened Receive
  import opened Protocol
  import opened Transport

  /** Settings read at start-up and fixed afterwards. */
  datatype Config = Config(freq: uint32, sf: uint32, bw: uint16, identity: Identity, servers: seq<Server>)

  /** What the loop carries from one pass to the next. */
  datatype State = State(variant: Variant, counters: Counters, lastTime: uint32, target: SockAddr)

  /** What the environment supplies during one pass: the DIO0 level, the
      transceiver as it stands, the random header tokens, the two clock
      readings and the formatted UTC time of a statistics report. */
  datatype Tick = Tick(
    dio0: bool, chip: Chip, upToken: (byte, byte), rxSec: nat, rxUsec: nat,
    nowSec: nat, statToken: (byte, byte), statTime: string)

  /** What one pass did. `fatal` is set when the process exits during the pass. */
  datatype StepResult = StepResult(
    state: State, sent: seq<Datagram>, uplink: Option<Uplink>, stat: Option<Stat>, fatal: Option<SendError>)

  const STAT_INTERVAL: nat := 5

  /** The start-up sequence: configure the transceiver, then begin with zeroed
      counters and a zeroed socket address. `lastTime` is never initialised by
      the process, so it is a parameter. */
  function Start(pins: Pins, probe: Probe, cfg: Config, lastTime: uint32): (r: Result<State, SetupError>)
    ensures r.Success? <==> SetupLoRa(pins, probe, cfg.freq, cfg.sf).Success?
    ensures r.Success? ==>
              && r.value.variant == SetupLoRa(pins, probe, cfg.freq, cfg.sf).value.variant
              && r.value.counters == INITIAL_COUNTERS
              && r.value.lastTime == lastTime
              && r.value.target == SockAddr(0, 0)
  {
    match SetupLoRa(pins, probe, cfg.freq, cfg.sf)
    case Failure(e) => Failure(e)
    case Success(c) => Success(State(c.variant, INITIAL_COUNTERS, lastTime, SockAddr(0, 0)))
  }

  /** `nowseconds - lasttime >= 5`, both `uint32_t`. */
  function StatDue(now: uint32, last: uint32): (due: bool)
    ensures due <==> (if now >= last then now - last else now + UINT32_MODULUS - last) >= STAT_INTERVAL
  {
    Sub32(now, last) >= STAT_INTERVAL
  }

  /** After a report at `now`, the next four seconds report nothing and the
      fifth reports again, across the 32-bit wrap as well. */
  lemma StatSpacing(now: uint32, d: nat)
    requires d <= STAT_INTERVAL
    ensures StatDue(ToUint32(now + d), now) <==> d == STAT_INTERVAL
  {
  }

  /** A clock reading below the last one still reports when the difference
      modulo 2^32 reaches five. */
  lemma StatDueAcrossWrap()
    ensures StatDue(3, UINT32_MODULUS - 2)
    ensures !StatDue(2, UINT32_MODULUS - 2)
  {
  }

  /** The interval counters after a report; the lifetime count stays. */
  function ResetInterval(c: Counters): (r: Counters)
    ensures r.rxRcv == 0 && r.rxOk == 0 && r.upPktFwd == 0
    ensures r.rxOkTot == c.rxOkTot
  {
    c.(rxRcv := 0, rxOk := 0, upPktFwd := 0)
  }

  /** Every datagram is a PUSH_DATA datagram carrying this gateway's identifier. */
  predicate PushDataFrom(mac: Mac, sent: seq<Datagram>)
  {
    forall i :: 0 <= i < |sent| ==>
      && |sent[i].bytes| >= HEADER_SIZE
      && sent[i].bytes[0] == PROTOCOL_VERSION && sent[i].bytes[3] == PKT_PUSH_DATA
      && sent[i].bytes[4..HEADER_SIZE] == GatewayId(mac)
  }

  /** The counters after one poll: untouched while DIO0 is low, otherwise
      counted as ReceivePkt counts the frame it finds. */
  function Polled(c: Counters, t: Tick): Counters
    requires t.chip.Valid()
  {
    if t.dio0 then Counted(c, !CrcError(t.chip)) else c
  }

  /** The uplink the forwarder reports for a frame found in the transceiver
      `chip`: the FIFO window the frame occupies, its SNR and RSSI registers,
      and the configured frequency and data rate. */
  function UplinkOf(cfg: Config, variant: Variant, t: Tick): (u: Uplink)
    requires t.chip.Valid()
    ensures u.size == |u.data|
  {
    UplinkFields(
      FifoWindow(t.chip.fifo, t.chip.Reg(REG_FIFO_RX_CURRENT_ADDR), t.chip.Reg(REG_RX_NB_BYTES)),
      Tmst(t.rxSec, t.rxUsec), cfg.freq, cfg.sf, cfg.bw,
      Rssi(t.chip.Reg(REG_PKT_RSSI_VALUE), variant), Snr(t.chip.Reg(REG_PKT_SNR_VALUE)))
  }

  /** The PUSH_DATA datagram carrying one uplink. */
  function UplinkMessage(cfg: Config, ser: Serializer, t: Tick, u: Uplink): seq<byte>
  {
    PushData(Header(t.upToken.0, t.upToken.1, cfg.identity.mac), ser.uplink(u))
  }

  /** The PUSH_DATA datagram carrying one statistics report. */
  function StatMessage(cfg: Config, ser: Serializer, t: Tick, s: Stat): seq<byte>
  {
    PushData(Header(t.statToken.0, t.statToken.1, cfg.identity.mac), ser.stat(s))
  }

  /** What forwarding a poll's uplink does: nothing when there is none,
      otherwise SendUdp of its datagram to the configured servers. */
  function Forwarded(cfg: Config, ser: Serializer, net: Network, st: State, t: Tick, uplink: Option<Uplink>)
    : SendOutcome
  {
    match uplink
    case None => SendOutcome([], [], st.target, None)
    case Some(u) => SendUdp(cfg.servers, UplinkMessage(cfg, ser, t, u), st.target, net)
  }

  /** Receivepacket: nothing happens unless DIO0 is high; a frame that passes
      the CRC check is reported with its SNR, its RSSI and the data-rate string
      and sent to every enabled server. */
  method Receivepacket(cfg: Config, ser: Serializer, net: Network, st: State, t: Tick)
    returns (st': State, sent: seq<Datagram>, uplink: Option<Uplink>, fatal: Option<SendError>)
    requires t.chip.Valid()
    ensures st'.variant == st.variant && st'.lastTime == st.lastTime
    ensures st'.counters.upPktFwd == st.counters.upPktFwd
    ensures !t.dio0 ==> st' == st && sent == [] && uplink.None? && fatal.None?
    ensures t.dio0 ==> st'.counters.rxRcv == Inc32(st.counters.rxRcv)
    ensures uplink.None? <==> !t.dio0 || CrcError(t.chip)
    ensures uplink.None? ==> sent == [] && fatal.None?
                             && st'.counters.rxOk == st.counters.rxOk && st'.counters.rxOkTot == st.counters.rxOkTot
    ensures uplink.Some? ==>
              var u := uplink.value;
              && st'.counters.rxOk == Inc32(st.counters.rxOk)
              && st'.counters.rxOkTot == Inc32(st.counters.rxOkTot)
              && u.data == FifoWindow(t.chip.fifo, t.chip.Reg(REG_FIFO_RX_CURRENT_ADDR), t.chip.Reg(REG_RX_NB_BYTES))
              && u.size == |u.data|
              && u.lsnr == Snr(t.chip.Reg(REG_PKT_SNR_VALUE))
              && u.rssi == Rssi(t.chip.Reg(REG_PKT_RSSI_VALUE), st.variant)
              && u.datr == Datr(cfg.sf, cfg.bw)
              && u.tmst == Tmst(t.rxSec, t.rxUsec)
    ensures uplink.Some? ==> uplink.value == UplinkOf(cfg, st.variant, t)
    ensures st'.counters == Polled(st.counters, t)
    ensures var out := Forwarded(cfg, ser, net, st, t, uplink);
            sent == out.sent && fatal == out.error && st'.target == out.target
    ensures PushDataFrom(cfg.identity.mac, sent)
  {
    if !t.dio0 {
      return st, [], None, None;
    }
    var frame, chip', cnt, _ := ReceivePkt(t.chip, st.counters);
    if frame.None? {
      return st.(counters := cnt), [], None, None;
    }
    var snr := Snr(ReadValue(chip', REG_PKT_SNR_VALUE));
    var rssi := Rssi(ReadValue(chip', REG_PKT_RSSI_VALUE), st.variant);
    var u := UplinkFields(frame.value, Tmst(t.rxSec, t.rxUsec), cfg.freq, cfg.sf, cfg.bw, rssi, snr);
    var out := SendUdp(cfg.servers, UplinkMessage(cfg, ser, t, u), st.target, net);
    return st.(counters := cnt, target := out.target), out.sent, Some(u), out.error;
  }

  /** One pass of main's loop. A statistics report is due when the 32-bit
      seconds difference reaches five; it carries the interval counters as they
      stand after the poll, and afterwards the interval counters restart from
      zero while the lifetime count of accepted frames carries on. No pass ever
      increments the forwarded-frames counter. */
  method Step(cfg: Config, ser: Serializer, net: Network, st: State, t: Tick) returns (r: StepResult)
    requires t.chip.Valid()
    ensures r.state.variant == st.variant
    ensures r.stat.Some? ==> StatDue(ToUint32(t.nowSec), st.lastTime)
    ensures r.fatal.None? ==> (r.stat.Some? <==> StatDue(ToUint32(t.nowSec), st.lastTime))
    ensures r.stat.Some? ==> r.stat.value.rxfw == st.counters.upPktFwd
    ensures r.stat.None? && r.fatal.None? ==> r.state.lastTime == st.lastTime
    ensures r.stat.Some? && r.fatal.None? ==>
              && r.state.lastTime == ToUint32(t.nowSec)
              && r.state.counters.rxRcv == 0 && r.state.counters.rxOk == 0 && r.state.counters.upPktFwd == 0
    ensures r.state.counters.upPktFwd == st.counters.upPktFwd || r.state.counters.upPktFwd == 0
    ensures r.state.counters.rxOkTot == (if r.uplink.Some? then Inc32(st.counters.rxOkTot) else st.counters.rxOkTot)
    ensures r.uplink.None? <==> !t.dio0 || CrcError(t.chip)
    ensures r.uplink.Some? ==>
              var u := r.uplink.value;
              && u.data == FifoWindow(t.chip.fifo, t.chip.Reg(REG_FIFO_RX_CURRENT_ADDR), t.chip.Reg(REG_RX_NB_BYTES))
              && u.size == |u.data|
              && u.lsnr == Snr(t.chip.Reg(REG_PKT_SNR_VALUE))
              && u.rssi == Rssi(t.chip.Reg(REG_PKT_RSSI_VALUE), st.variant)
    ensures r.fatal.None? ==>
              r.state.counters == if StatDue(ToUint32(t.nowSec), st.lastTime)
                                  then ResetInterval(Polled(st.counters, t)) else Polled(st.counters, t)
    ensures var up := Forwarded(cfg, ser, net, st, t, r.uplink);
            up.error.Some? ==> r.stat.None? && r.fatal == up.error
    ensures var up := Forwarded(cfg, ser, net, st, t, r.uplink);
            r.stat.None? ==>
              && r.sent == up.sent && r.fatal == up.error && r.state.target == up.target
              && r.state.counters == Polled(st.counters, t)
    ensures r.uplink.Some? ==> r.uplink.value == UplinkOf(cfg, st.variant, t)
    ensures r.stat.Some? ==> r.stat.value == StatFields(Polled(st.counters, t), t.statTime, cfg.identity)
    ensures r.stat.Some? ==>
              var p := Polled(st.counters, t);
              && r.stat.value.rxnb == p.rxRcv && r.stat.value.rxok == p.rxOk
              && r.stat.value.time == t.statTime
    ensures var up := Forwarded(cfg, ser, net, st, t, r.uplink);
            r.stat.Some? ==>
              var out := SendUdp(cfg.servers, StatMessage(cfg, ser, t, r.stat.value), up.target, net);
              r.sent == up.sent + out.sent && r.fatal == out.error && r.state.target == out.target
    ensures PushDataFrom(cfg.identity.mac, r.sent)
  {
    var st1, sent, uplink, fatal := Receivepacket(cfg, ser, net, st, t);
    if fatal.Some? {
      return StepResult(st1, sent, uplink, None, fatal);
    }
    var now := ToUint32(t.nowSec);
    if !StatDue(now, st1.lastTime) {
      return StepResult(st1, sent, uplink, None, None);
    }
    var s := StatFields(st1.counters, t.statTime, cfg.identity);
    var out := SendUdp(cfg.servers, StatMessage(cfg, ser, t, s), st1.target, net);
    var counters := if out.error.None? then ResetInterval(st1.counters) else st1.counters;
    var st2 := st1.(lastTime := now, target := out.target, counters := counters);
    return StepResult(st2, sent + out.sent, uplink, Some(s), out.error);
  }

  /** The poll of this pass finds a frame that passes the CRC check. */
  predicate FrameAccepted(t: Tick)
  {
    t.dio0 && t.chip.Valid() && !CrcError(t.chip)
  }

  /** The uplinks a stretch of passes makes, in order: one for each pass
      whose poll finds a frame that passes the CRC check, built from the
      transceiver as that pass found it. */
  function AcceptedUplinks(cfg: Config, variant: Variant, ticks: seq<Tick>): seq<Uplink>
  {
    if |ticks| == 0 then []
    else
      var last := ticks[|ticks| - 1];
      AcceptedUplinks(cfg, variant, ticks[..|ticks| - 1])
      + if FrameAccepted(last) then [UplinkOf(cfg, variant, last)] else []
  }

  /** One more pass appends its uplink exactly when its frame is accepted. */
  lemma AcceptedUplinksStep(cfg: Config, variant: Variant, ticks: seq<Tick>, k: nat)
    requires k < |ticks|
    ensures AcceptedUplinks(cfg, variant, ticks[..k + 1])
            == AcceptedUplinks(cfg, variant, ticks[..k])
               + if FrameAccepted(ticks[k]) then [UplinkOf(cfg, variant, ticks[k])] else []
  {
    assert ticks[..k + 1][..k] == ticks[..k];
  }

  /** The number of statistics reports a stretch of passes makes when no pass
      is fatal: a pass reports when its clock is due against `last`, and a
      report moves `last` to that pass's clock. */
  function DueReports(last: uint32, ticks: seq<Tick>): nat
    decreases |ticks|
  {
    if |ticks| == 0 then 0
    else
      var now := ToUint32(ticks[0].nowSec);
      if StatDue(now, last) then 1 + DueReports(now, ticks[1..]) else DueReports(last, ticks[1..])
  }

  /** What every stretch of passes from start-up keeps: the forwarded-frames
      counter stays zero, so every report gives `rxfw` = 0; the lifetime count
      of accepted frames is the number of uplinks modulo 2^32; and every
      uplink's size is its data length. */
  predicate RunInvariant(st: State, stats: seq<Stat>, uplinks: seq<Uplink>)
  {
    && st.counters.upPktFwd == 0
    && st.counters.rxOkTot == ToUint32(|uplinks|)
    && (forall i :: 0 <= i < |stats| ==> stats[i].rxfw == 0)
    && (forall i :: 0 <= i < |uplinks| ==> uplinks[i].size == |uplinks[i].data|)
  }

  /** One pass with its results appended to the logs of reports and uplinks
      made so far: a report exactly when one is due (unless the pass is
      fatal), one uplink exactly when the frame is accepted, and the run
      invariant kept. */
  method Advance(cfg: Config, ser: Serializer, net: Network, st: State, t: Tick, stats: seq<Stat>, uplinks: seq<Uplink>)
    returns (st': State, stats': seq<Stat>, uplinks': seq<Uplink>, fatal: Option<SendError>)
    requires t.chip.Valid()
    ensures st'.variant == st.variant
    ensures stats' == stats || (|stats'| == |stats| + 1 && stats'[..|stats|] == stats
                                && stats'[|stats|].rxfw == st.counters.upPktFwd)
    ensures uplinks' == uplinks + if FrameAccepted(t) then [UplinkOf(cfg, st.variant, t)] else []
    ensures st'.counters.upPktFwd == st.counters.upPktFwd || st'.counters.upPktFwd == 0
    ensures st'.counters.rxOkTot
            == if FrameAccepted(t) then Inc32(st.counters.rxOkTot) else st.counters.rxOkTot
    ensures fatal.None? ==> (|stats'| == |stats| + 1 <==> StatDue(ToUint32(t.nowSec), st.lastTime))
    ensures |stats'| == |stats| + 1 ==>
              stats'[|stats|] == StatFields(Polled(st.counters, t), t.statTime, cfg.identity)
    ensures fatal.None? ==>
              st'.lastTime == if StatDue(ToUint32(t.nowSec), st.lastTime) then ToUint32(t.nowSec) else st.lastTime
    ensures RunInvariant(st, stats, uplinks) ==> RunInvariant(st', stats', uplinks')
  {
    var r := Step(cfg, ser, net, st, t);
    st', stats', uplinks', fatal := r.state, stats, uplinks, r.fatal;
    if r.stat.Some? {
      stats' := stats + [r.stat.value];
    }
    if r.uplink.Some? {
      uplinks' := uplinks + [r.uplink.value];
      Inc32Succ(|uplinks|);
    }
  }

  /** main's endless loop, run over a finite stretch of passes from start-up
      until the passes run out or the process exits. Every pass before the
      last one completes; the uplinks are those of the accepted frames, in
      order; and without a fatal exit there is one statistics report per due
      pass. The forwarded-frames counter is never
      incremented, so every statistics report gives `rxfw` = 0; the lifetime
      count of accepted frames is never reset and equals the number of frames
      forwarded, modulo 2^32. */
  method Run(cfg: Config, ser: Serializer, net: Network, st0: State, ticks: seq<Tick>)
    returns (st: State, passes: nat, stats: seq<Stat>, uplinks: seq<Uplink>, fatal: Option<SendError>)
    requires st0.counters == INITIAL_COUNTERS
    requires forall i :: 0 <= i < |ticks| ==> ticks[i].chip.Valid()
    ensures passes <= |ticks| && |stats| <= passes
    ensures fatal.None? ==> passes == |ticks|
    ensures fatal.Some? ==> passes > 0
    ensures uplinks == AcceptedUplinks(cfg, st0.variant, ticks[..passes])
    ensures fatal.None? ==> |stats| == DueReports(st0.lastTime, ticks)
    ensures st.variant == st0.variant
    ensures forall i :: 0 <= i < |stats| ==> stats[i].rxfw == 0
    ensures st.counters.rxOkTot == ToUint32(|uplinks|)
    ensures st.counters.upPktFwd == 0
    ensures forall i :: 0 <= i < |uplinks| ==> uplinks[i].size == |uplinks[i].data|
  {
    st, stats, uplinks, fatal := st0, [], [], None;
    passes := 0;
    while passes < |ticks| && fatal.None?
      invariant 0 <= passes <= |ticks|
      invariant |stats| <= passes
      invariant fatal.Some? ==> passes > 0
      invariant uplinks == AcceptedUplinks(cfg, st0.variant, ticks[..passes])
      invariant fatal.None? ==> |stats| + DueReports(st.lastTime, ticks[passes..]) == DueReports(st0.lastTime, ticks)
      invariant st.variant == st0.variant
      invariant RunInvariant(st, stats, uplinks)
    {
      assert ticks[passes..][1..] == ticks[passes + 1..];
      st, stats, uplinks, fatal := Advance(cfg, ser, net, st, ticks[passes], stats, uplinks);
      AcceptedUplinksStep(cfg, st0.variant, ticks, passes);
      passes := passes + 1;
    }
  }
}

=== FILE: protocol.dfy ===
/** The gateway wire protocol as the forwarder emits it: the 12-byte PUSH_DATA
    header shared by uplink and statistics datagrams, and the fields of the two
    JSON bodies. Rendering the fields as JSON text and base64-encoding the frame
    are done by an external serializer, passed in as a pair of functions. */
module Protocol {
  import opened Bytes
  import opened Wrappers
  import opened Receive

  const PROTOCOL_VERSION: byte := 1
  const PKT_PUSH_DATA: byte := 0
  const HEADER_SIZE: nat := 12

  /** A 6-byte hardware address. */
  type Mac = s: seq<byte> | |s| == 6 witness [0, 0, 0, 0, 0, 0]

  /** The variable part of a PUSH_DATA header: the random token and the MAC. */
  datatype Header = Header(tokenH: byte, tokenL: byte, mac: Mac)

  /** The 8-byte gateway identifier: the MAC with 0xFF, 0xFF in its middle. */
  function GatewayId(mac: Mac): (id: seq<byte>)
    ensures |id| == 8
    ensures id[..3] == mac[..3] && id[5..] == mac[3..]
    ensures id[3] == 0xFF && id[4] == 0xFF
  {
    mac[..3] + [0xFF, 0xFF] + mac[3..]
  }

  function EncodeHeader(h: Header): (b: seq<byte>)
    ensures |b| == HEADER_SIZE
  {
    [PROTOCOL_VERSION, h.tokenH, h.tokenL, PKT_PUSH_DATA] + GatewayId(h.mac)
  }

  /** A whole PUSH_DATA datagram: header, then the JSON body. */
  function PushData(h: Header, body: seq<byte>): (d: seq<byte>)
    ensures |d| == HEADER_SIZE + |body|
    ensures d[0] == PROTOCOL_VERSION && d[3] == PKT_PUSH_DATA
    ensures d[4..HEADER_SIZE] == GatewayId(h.mac)
    ensures d[HEADER_SIZE..] == body
  {
    EncodeHeader(h) + body
  }

  /** How a collector reads a PUSH_DATA datagram back. */
  function ParsePushData(d: seq<byte>): Option<(Header, seq<byte>)>
  {
    if |d| < HEADER_SIZE || d[0] != PROTOCOL_VERSION || d[3] != PKT_PUSH_DATA || d[7] != 0xFF || d[8] != 0xFF
    then None
    else Some((Header(d[1], d[2], [d[4], d[5], d[6], d[9], d[10], d[11]]), d[HEADER_SIZE..]))
  }

  lemma PushDataRoundTrip(h: Header, body: seq<byte>)
    ensures ParsePushData(PushData(h, body)) == Some((h, body))
  {
    var d := PushData(h, body);
    assert [d[4], d[5], d[6], d[9], d[10], d[11]] == h.mac;
  }

  /** Every datagram a collector accepts is exactly the encoding of what it read. */
  lemma ParsePushDataSound(d: seq<byte>)
    requires ParsePushData(d).Some?
    ensures PushData(ParsePushData(d).value.0, ParsePushData(d).value.1) == d
  {
  }

  // ---- decimal text, as printf's %u writes it ----

  function DigitChar(d: nat): char
    requires d < 10
  {
    ['0', '1', '2', '3', '4', '5', '6', '7', '8', '9'][d]
  }

  predicate IsDigit(c: char)
  {
    '0' <= c <= '9'
  }

  function DigitValue(c: char): nat
    requires IsDigit(c)
  {
    (c as int) - ('0' as int)
  }

  predicate AllDigits(s: string)
  {
    forall i :: 0 <= i < |s| ==> IsDigit(s[i])
  }

  function Decimal(n: nat): (s: string)
    ensures |s| >= 1 && AllDigits(s)
    ensures n < 10 ==> |s| == 1
    ensures n < 100 ==> |s| <= 2
    ensures n < 1000 ==> |s| <= 3
    ensures |s| > 1 ==> s[0] != '0'
  {
    if n < 10 then [DigitChar(n)] else Decimal(n / 10) + [DigitChar(n % 10)]
  }

  function ParseDecimal(s: string): nat
    requires AllDigits(s)
  {
    if |s| == 0 then 0 else ParseDecimal(s[..|s| - 1]) * 10 + DigitValue(s[|s| - 1])
  }

  lemma {:induction false} DecimalRoundTrip(n: nat)
    ensures ParseDecimal(Decimal(n)) == n
  {
    var s := Decimal(n);
    if n >= 10 {
      DecimalRoundTrip(n / 10);
      assert s[..|s| - 1] == Decimal(n / 10);
    }
  }

  // ---- datr ----

  /** `char datr[] = "SFxxBWxxx"` holds nine characters and its terminator, so
      `snprintf` keeps at most nine. */
  const DATR_CAPACITY: nat := 9

  /** The untruncated text of `"SF%hhuBW%hu"`: `%hhu` prints the spreading
      factor reduced to an unsigned char. */
  function DatrText(sf: uint32, bw: uint16): string
  {
    "SF" + Decimal(sf % 0x100) + "BW" + Decimal(bw)
  }

  function Datr(sf: uint32, bw: uint16): (s: string)
    ensures |s| <= DATR_CAPACITY
    ensures s <= DatrText(sf, bw)
    ensures |DatrText(sf, bw)| <= DATR_CAPACITY ==> s == DatrText(sf, bw)
    ensures |s| == if |DatrText(sf, bw)| <= DATR_CAPACITY then |DatrText(sf, bw)| else DATR_CAPACITY
  {
    var full := DatrText(sf, bw);
    if |full| <= DATR_CAPACITY then full else full[..DATR_CAPACITY]
  }

  /** Length of the leading run of digits. */
  function DigitRun(s: string): (k: nat)
    ensures k <= |s| && AllDigits(s[..k])
    ensures k < |s| ==> !IsDigit(s[k])
  {
    if |s| == 0 || !IsDigit(s[0]) then 0 else 1 + DigitRun(s[1..])
  }

  lemma {:induction false} DigitRunOf(d: string, rest: string)
    requires AllDigits(d)
    requires |rest| > 0 && !IsDigit(rest[0])
    ensures DigitRun(d + rest) == |d|
  {
    if |d| > 0 {
      assert (d + rest)[1..] == d[1..] + rest;
      DigitRunOf(d[1..], rest);
    }
  }

  /** How a collector reads `SF<n>BW<m>` back. */
  function ParseDatr(s: string): Option<(nat, nat)>
  {
    if |s| < 2 || s[..2] != "SF" then None
    else
      var rest := s[2..];
      var k := DigitRun(rest);
      if k == 0 || |rest| < k + 3 || rest[k..k + 2] != "BW" || !AllDigits(rest[k + 2..]) then None
      else Some((ParseDecimal(rest[..k]), ParseDecimal(rest[k + 2..])))
  }

  /** The accepting branch of `ParseDatr`, stated on the text after `SF`. */
  lemma ParseDatrAccepts(s: string, rest: string, k: nat)
    requires |s| >= 2 && s[..2] == "SF" && s[2..] == rest
    requires DigitRun(rest) == k && k > 0 && |rest| >= k + 3
    requires rest[k..k + 2] == "BW" && AllDigits(rest[k + 2..])
    ensures ParseDatr(s) == Some((ParseDecimal(rest[..k]), ParseDecimal(rest[k + 2..])))
  {
  }

  /** Where the pieces of `SF<ds>BW<db>` sit in the text. */
  lemma DatrPieces(s: string, ds: string, db: string)
    requires s == "SF" + ds + "BW" + db
    ensures |s| >= 2 && s[..2] == "SF" && s[2..] == ds + ("BW" + db)
    ensures s[2..][..|ds|] == ds && s[2..][|ds|..|ds| + 2] == "BW" && s[2..][|ds| + 2..] == db
  {
  }

  /** Any `SF<digits>BW<digits>` text parses back to its two numbers. */
  lemma ParseDatrOf(s: string, ds: string, db: string)
    requires |ds| > 0 && |db| > 0 && AllDigits(ds) && AllDigits(db)
    requires s == "SF" + ds + "BW" + db
    ensures ParseDatr(s) == Some((ParseDecimal(ds), ParseDecimal(db)))
  {
    DatrPieces(s, ds, db);
    DigitRunOf(ds, "BW" + db);
    ParseDatrAccepts(s, s[2..], |ds|);
  }

  /** For a valid spreading factor and a three-digit bandwidth the data-rate
      string fits the buffer and reads back as the pair it was built from. */
  lemma DatrRoundTrip(sf: uint32, bw: uint16)
    requires 7 <= sf <= 12 && bw < 1000
    ensures Datr(sf, bw) == DatrText(sf, bw)
    ensures ParseDatr(Datr(sf, bw)) == Some((sf, bw))
  {
    var ds, db := Decimal(sf), Decimal(bw);
    assert sf % 0x100 == sf;
    assert DatrText(sf, bw) == "SF" + ds + "BW" + db;
    ParseDatrOf(Datr(sf, bw), ds, db);
    DecimalRoundTrip(sf);
    DecimalRoundTrip(bw);
  }

  lemma DecimalExamples()
    ensures Decimal(7) == "7" && Decimal(12) == "12"
    ensures Decimal(100) == "100" && Decimal(125) == "125"
  {
  }

  lemma DatrExamples()
    ensures Datr(7, 125) == "SF7BW125"
    ensures Datr(12, 125) == "SF12BW125"
    ensures Datr(100, 125) == "SF100BW12"
  {
    DecimalExamples();
    assert DatrText(7, 125) == "SF7BW125";
    assert DatrText(12, 125) == "SF12BW125";
    assert DatrText(100, 125) == "SF100BW125";
  }

  // ---- the two JSON bodies ----

  /** The fields of one `rxpk` object. `freq` is kept in Hz; the serializer
      prints it in MHz. `data` holds the frame, which the serializer base64-encodes. */
  datatype Uplink = Uplink(
    tmst: uint32, freqHz: uint32, chan: nat, rfch: nat, stat: nat, modu: string,
    datr: string, codr: string, rssi: int, lsnr: int, size: byte, data: seq<byte>)

  /** `(uint32_t)(now.tv_sec * 1000000 + now.tv_usec)`. */
  function Tmst(sec: nat, usec: nat): (t: uint32)
    ensures (sec * 1000000 + usec - t) % UINT32_MODULUS == 0
  {
    ToUint32(sec * 1000000 + usec)
  }

  /** The gateway identity reported in statistics. */
  datatype Identity = Identity(mac: Mac, altitude: int, platform: string, email: string, description: string)

  /** The fields of one `stat` object. */
  datatype Stat = Stat(
    time: string, alti: int, rxnb: uint32, rxok: uint32, rxfw: uint32, ackr: nat,
    dwnb: nat, txnb: nat, pfrm: string, mail: string, desc: string)

  /** The external JSON writer (with base64 for the frame). */
  datatype Serializer = Serializer(uplink: Uplink -> seq<byte>, stat: Stat -> seq<byte>)

  /** The `rxpk` fields of one received frame: single channel and RF chain 0,
      CRC ok, LoRa at coding rate 4/5. */
  function UplinkFields(frame: seq<byte>, tmst: uint32, freq: uint32, sf: uint32, bw: uint16, rssi: int, snr: int)
    : (u: Uplink)
    requires |frame| < 0x100
    ensures u.size == |u.data| && u.data == frame
    ensures u.chan == 0 && u.rfch == 0 && u.stat == 1
    ensures u.modu == "LORA" && u.codr == "4/5" && u.datr == Datr(sf, bw)
    ensures u.freqHz == freq && u.tmst == tmst && u.rssi == rssi && u.lsnr == snr
  {
    Uplink(tmst, freq, 0, 0, 1, "LORA", Datr(sf, bw), "4/5", rssi, snr, |frame|, frame)
  }

  /** The `stat` fields: the interval counters, with acknowledgement rate and
      downlink counts fixed at zero. */
  function StatFields(cnt: Counters, time: string, id: Identity): (s: Stat)
    ensures s.rxnb == cnt.rxRcv && s.rxok == cnt.rxOk && s.rxfw == cnt.upPktFwd
    ensures s.ackr == 0 && s.dwnb == 0 && s.txnb == 0
    ensures s.time == time && s.alti == id.altitude
    ensures s.pfrm == id.platform && s.mail == id.email && s.desc == id.description
  {
    Stat(time, id.altitude, cnt.rxRcv, cnt.rxOk, cnt.upPktFwd, 0, 0, 0, id.platform, id.email, id.description)
  }
}

=== FILE: quality.dfy ===
/** Link-quality figures reported with every received frame. */
module Quality {
  import opened Bytes
  import opened Registers

  /** C's `/` on `int`: the quotient is truncated toward zero. */
  function TruncDiv(a: int, d: nat): int
    requires d > 0
  {
    if a >= 0 then a / d else -((-a) / d)
  }

  /** The two's-complement reading of a byte. */
  function SignedByte(v: byte): int
  {
    if v >= 0x80 then v - 0x100 else v
  }

  /** SNR from the raw REG_PKT_SNR_VALUE byte. With the sign bit set the whole
      byte is negated, `((~value + 1) & 0xFF) >> 2`, and the quotient negated;
      otherwise `(value & 0xFF) >> 2`. */
  function Snr(value: byte): (snr: int)
    ensures -32 <= snr <= 31
    ensures snr < 0 ==> value >= 0x80
  {
    if value >= 0x80 then -(ToByte(-(value as int)) / 4) else ToByte(value) / 4
  }

  /** The SNR is the register's signed value divided by four with truncation
      toward zero: a quarter-dB reading in whole dB. */
  lemma SnrIsTruncatedQuarter(value: byte)
    ensures Snr(value) == TruncDiv(SignedByte(value), 4)
  {
  }

  lemma SnrExamples()
    ensures Snr(0x05) == 1
    ensures Snr(0x84) == -31
    ensures Snr(0x80) == -32
    ensures Snr(0xFF) == 0
    ensures Snr(0x7F) == 31
  {
  }

  /** The per-variant noise-floor correction subtracted from register 0x1A. */
  function RssiCorrection(variant: Variant): int
  {
    match variant
    case SX1272 => 139
    case SX1276 => 157
  }

  /** RSSI in dBm: `ReadRegister(0x1A) - rssicorr`. */
  function Rssi(raw: byte, variant: Variant): (rssi: int)
    ensures -RssiCorrection(variant) <= rssi < 0x100 - RssiCorrection(variant)
    ensures rssi + RssiCorrection(variant) == raw
  {
    raw - RssiCorrection(variant)
  }

  /** Distinct raw readings give distinct reported RSSI values, and the
      SX1276 reading is always 18 dB below the SX1272 reading of the same byte. */
  lemma RssiInjectiveAndOffset(a: byte, b: byte)
    ensures Rssi(a, SX1272) == Rssi(b, SX1272) ==> a == b
    ensures Rssi(a, SX1276) == Rssi(b, SX1276) ==> a == b
    ensures Rssi(a, SX1272) - Rssi(a, SX1276) == 18
  {
  }

  lemma RssiExamples()
    ensures Rssi(100, SX1272) == -39
    ensures Rssi(100, SX1276) == -57
  {
  }
}

=== FILE: receive.dfy ===
/** ReceivePkt: takes one frame out of the transceiver once DIO0 has signalled
    RxDone, and keeps the receive counters. */
module Receive {
  import opened Bytes
  import opened Wrappers
  import opened Registers
  import opened RegisterBus

  /** The forwarder's `uint32_t` counters: frames seen and CRC-valid frames in
      the current statistics interval, CRC-valid frames since start, and frames
      forwarded in the interval. */
  datatype Counters = Counters(rxRcv: uint32, rxOk: uint32, rxOkTot: uint32, upPktFwd: uint32)

  /** The counters as the process starts (zero-initialised globals). */
  const INITIAL_COUNTERS := Counters(0, 0, 0, 0)

  /** `n` FIFO bytes starting at `start`, the 8-bit pointer wrapping at 256. */
  function FifoWindow(fifo: seq<byte>, start: byte, n: nat): (w: seq<byte>)
    requires |fifo| == FIFO_SIZE
    ensures |w| == n
    ensures forall j :: 0 <= j < n ==> w[j] == fifo[(start + j) % FIFO_SIZE]
  {
    seq(n, j requires 0 <= j < n => fifo[(start + j) % FIFO_SIZE])
  }

  lemma FifoWindowStep(fifo: seq<byte>, start: byte, n: nat)
    requires |fifo| == FIFO_SIZE
    ensures FifoWindow(fifo, start, n + 1) == FifoWindow(fifo, start, n) + [fifo[ToByte(start as int + n)]]
  {
  }

  /** The CRC-error flag as it stands when the driver reads REG_IRQ_FLAGS. */
  predicate CrcError(chip: Chip)
    requires chip.Valid()
  {
    Bit(chip.Reg(REG_IRQ_FLAGS), IRQ_PAYLOAD_CRC_ERROR_BIT)
  }

  lemma ReplayStep(chip: Chip, ops: seq<BusOp>, op: BusOp)
    requires chip.Valid()
    ensures Replay(chip, ops + [op]) == Apply(Replay(chip, ops), op)
  {
  }

  /** ReadRegister: one read access, recorded on the trace. */
  method ReadRegister(chip: Chip, c: Chip, trace: seq<BusOp>, addr: byte) returns (v: byte, c': Chip, trace': seq<BusOp>)
    requires chip.Valid() && c.Valid() && c == Replay(chip, trace)
    ensures c'.Valid() && c' == Replay(chip, trace') && c' == Apply(c, RegRead(addr))
    ensures trace' == trace + [RegRead(addr)]
    ensures v == ReadValue(c, addr)
  {
    v := ReadValue(c, addr);
    c' := Apply(c, RegRead(addr));
    trace' := trace + [RegRead(addr)];
    ReplayStep(chip, trace, RegRead(addr));
  }

  /** WriteRegister: one write access, recorded on the trace. */
  method WriteRegister(chip: Chip, c: Chip, trace: seq<BusOp>, addr: byte, value: byte) returns (c': Chip, trace': seq<BusOp>)
    requires chip.Valid() && c.Valid() && c == Replay(chip, trace)
    ensures c'.Valid() && c' == Replay(chip, trace') && c' == Apply(c, RegWrite(addr, value))
    ensures trace' == trace + [RegWrite(addr, value)]
  {
    c' := Apply(c, RegWrite(addr, value));
    trace' := trace + [RegWrite(addr, value)];
    ReplayStep(chip, trace, RegWrite(addr, value));
  }

  /** The FIFO read loop: `n` reads of REG_FIFO, each returning the byte under
      the FIFO pointer and advancing it. Only the pointer register changes. */
  method ReadFifo(chip: Chip, c0: Chip, trace0: seq<BusOp>, n: byte)
    returns (payload: seq<byte>, c: Chip, trace: seq<BusOp>)
    requires chip.Valid() && c0.Valid() && c0 == Replay(chip, trace0)
    ensures c.Valid() && c == Replay(chip, trace)
    ensures payload == FifoWindow(c0.fifo, c0.FifoPtr(), n)
    ensures c.fifo == c0.fifo && c.FifoPtr() == ToByte(c0.FifoPtr() as int + n)
    ensures forall a: byte :: a % 0x80 != REG_FIFO_ADDR_PTR ==> c.Reg(a) == c0.Reg(a)
    ensures trace == trace0 + seq(n, _ => RegRead(REG_FIFO))
  {
    c, trace := c0, trace0;
    payload := [];
    var i: int := 0;
    while i < n
      invariant 0 <= i <= n
      invariant c.Valid() && c == Replay(chip, trace)
      invariant c.fifo == c0.fifo
      invariant c.FifoPtr() == ToByte(c0.FifoPtr() as int + i)
      invariant forall a: byte :: a % 0x80 != REG_FIFO_ADDR_PTR ==> c.Reg(a) == c0.Reg(a)
      invariant payload == FifoWindow(c0.fifo, c0.FifoPtr(), i)
      invariant trace == trace0 + seq(i, _ => RegRead(REG_FIFO))
    {
      var b;
      b, c, trace := ReadRegister(chip, c, trace, REG_FIFO);
      ToByteSucc(c0.FifoPtr() as int + i);
      FifoWindowStep(c0.fifo, c0.FifoPtr(), i);
      payload := payload + [b];
      i := i + 1;
      assert seq(i, _ => RegRead(REG_FIFO)) == seq(i - 1, _ => RegRead(REG_FIFO)) + [RegRead(REG_FIFO)];
    }
  }

  /** The bus accesses ReceivePkt makes, in order: clear RxDone and read the
      flags; then either clear the CRC-error flag, or read the start address
      and length of the last packet, point the FIFO there and read that many
      bytes. */
  function ReceiveTrace(chip: Chip, accepted: bool): (t: seq<BusOp>)
    requires chip.Valid()
  {
    [RegWrite(REG_IRQ_FLAGS, IRQ_RX_DONE_MASK), RegRead(REG_IRQ_FLAGS)]
    + if !accepted then [RegWrite(REG_IRQ_FLAGS, IRQ_PAYLOAD_CRC_ERROR_MASK)]
      else [RegRead(REG_FIFO_RX_CURRENT_ADDR), RegRead(REG_RX_NB_BYTES),
            RegWrite(REG_FIFO_ADDR_PTR, chip.Reg(REG_FIFO_RX_CURRENT_ADDR))]
           + seq(chip.Reg(REG_RX_NB_BYTES), _ => RegRead(REG_FIFO))
  }

  /** The counters after one ReceivePkt call: every frame is counted as seen;
      an accepted frame also moves both accepted-frame counters. */
  function Counted(cnt: Counters, accepted: bool): Counters
  {
    var seen := cnt.(rxRcv := Inc32(cnt.rxRcv));
    if accepted then seen.(rxOk := Inc32(cnt.rxOk), rxOkTot := Inc32(cnt.rxOkTot)) else seen
  }

  /** ReceivePkt. A frame is returned iff the CRC-error flag is clear. The bus
      accesses and the counter updates are those of ReceiveTrace and Counted.
      The returned transceiver is the input one after the returned trace: both
      RxDone and the CRC-error flag are clear, no register other than the
      flags and the FIFO pointer has changed, and an accepted frame is exactly
      REG_RX_NB_BYTES FIFO bytes from REG_FIFO_RX_CURRENT_ADDR on, with the
      pointer left just past it. */
  method ReceivePkt(chip: Chip, cnt: Counters)
    returns (frame: Option<seq<byte>>, chipAfter: Chip, cntAfter: Counters, trace: seq<BusOp>)
    requires chip.Valid()
    ensures frame.None? <==> CrcError(chip)
    ensures trace == ReceiveTrace(chip, frame.Some?)
    ensures cntAfter == Counted(cnt, frame.Some?)
    ensures chipAfter.Valid() && chipAfter == Replay(chip, trace)
    ensures !Bit(chipAfter.Reg(REG_IRQ_FLAGS), 6) && !Bit(chipAfter.Reg(REG_IRQ_FLAGS), IRQ_PAYLOAD_CRC_ERROR_BIT)
    ensures forall a: byte :: a % 0x80 != REG_IRQ_FLAGS && a % 0x80 != REG_FIFO_ADDR_PTR ==> chipAfter.Reg(a) == chip.Reg(a)
    ensures frame.Some? ==>
              var start := chip.Reg(REG_FIFO_RX_CURRENT_ADDR);
              var n := chip.Reg(REG_RX_NB_BYTES);
              && frame.value == FifoWindow(chip.fifo, start, n)
              && chipAfter.FifoPtr() == ToByte(start as int + n)
  {
    var c := chip;
    trace := [];
    c, trace := WriteRegister(chip, c, trace, REG_IRQ_FLAGS, IRQ_RX_DONE_MASK);
    var irqflags;
    irqflags, c, trace := ReadRegister(chip, c, trace, REG_IRQ_FLAGS);
    assert irqflags == ClearBits(chip.Reg(REG_IRQ_FLAGS), IRQ_RX_DONE_MASK) == c.Reg(REG_IRQ_FLAGS);
    assert Bit(irqflags, IRQ_PAYLOAD_CRC_ERROR_BIT) == CrcError(chip) by {
      assert !Bit(IRQ_RX_DONE_MASK, IRQ_PAYLOAD_CRC_ERROR_BIT);
    }
    assert !Bit(c.Reg(REG_IRQ_FLAGS), 6) by {
      assert Bit(IRQ_RX_DONE_MASK, 6);
    }
    cntAfter := cnt.(rxRcv := Inc32(cnt.rxRcv));
    if Bit(irqflags, IRQ_PAYLOAD_CRC_ERROR_BIT) {
      var c1 := c;
      c, trace := WriteRegister(chip, c, trace, REG_IRQ_FLAGS, IRQ_PAYLOAD_CRC_ERROR_MASK);
      assert c.Reg(REG_IRQ_FLAGS) == ClearBits(c1.Reg(REG_IRQ_FLAGS), IRQ_PAYLOAD_CRC_ERROR_MASK);
      assert Bit(IRQ_PAYLOAD_CRC_ERROR_MASK, IRQ_PAYLOAD_CRC_ERROR_BIT);
      return None, c, cntAfter, trace;
    }
    cntAfter := cntAfter.(rxOk := Inc32(cntAfter.rxOk), rxOkTot := Inc32(cntAfter.rxOkTot));
    var payload;
    payload, c, trace := ReadPayload(chip, c, trace);
    return Some(payload), c, cntAfter, trace;
  }

  /** The accepted-frame path of ReceivePkt: read where the last packet starts
      and how long it is, point the FIFO there and read that many bytes. */
  method ReadPayload(chip: Chip, c0: Chip, trace0: seq<BusOp>)
    returns (payload: seq<byte>, c: Chip, trace: seq<BusOp>)
    requires chip.Valid() && c0.Valid() && c0 == Replay(chip, trace0)
    ensures c.Valid() && c == Replay(chip, trace)
    ensures var start := c0.Reg(REG_FIFO_RX_CURRENT_ADDR);
            var n := c0.Reg(REG_RX_NB_BYTES);
            && payload == FifoWindow(c0.fifo, start, n)
            && c.fifo == c0.fifo && c.FifoPtr() == ToByte(start as int + n)
            && trace == trace0 + [RegRead(REG_FIFO_RX_CURRENT_ADDR), RegRead(REG_RX_NB_BYTES),
                                  RegWrite(REG_FIFO_ADDR_PTR, start)] + seq(n, _ => RegRead(REG_FIFO))
    ensures forall a: byte :: a % 0x80 != REG_FIFO_ADDR_PTR ==> c.Reg(a) == c0.Reg(a)
  {
    var currentAddr, receivedCount;
    c := c0;
    currentAddr, c, trace := ReadRegister(chip, c, trace0, REG_FIFO_RX_CURRENT_ADDR);
    receivedCount, c, trace := ReadRegister(chip, c, trace, REG_RX_NB_BYTES);
    c, trace := WriteRegister(chip, c, trace, REG_FIFO_ADDR_PTR, currentAddr);
    assert c.fifo == c0.fifo && c.FifoPtr() == currentAddr;
    payload, c, trace := ReadFifo(chip, c, trace, receivedCount);
  }
}

=== FILE: register_bus.dfy ===
/** The register bus between the host and the transceiver: the two-byte SPI
    frame of every register access, and an abstract register file that answers
    reads and absorbs writes. */
module RegisterBus {
  import opened Bytes
  import opened Registers

  /** One register transaction as the driver issues it. */
  datatype BusOp = RegRead(addr: byte) | RegWrite(addr: byte, value: byte)

  /** The two bytes shifted out on SPI for one transaction. */
  datatype SpiFrame = SpiFrame(header: byte, data: byte)

  /** ReadRegister: header `addr & 0x7F` (write bit clear), data byte 0x00. */
  function ReadFrame(addr: byte): (f: SpiFrame)
    ensures f.header < 0x80 && f.data == 0x00
    ensures Decode(f) == RegRead(addr % 0x80)
  {
    SpiFrame(addr % 0x80, 0x00)
  }

  /** WriteRegister: header `addr | 0x80` (write bit set), then the value. */
  function WriteFrame(addr: byte, value: byte): (f: SpiFrame)
    ensures f.header >= 0x80
    ensures Decode(f) == RegWrite(addr % 0x80, value)
  {
    SpiFrame(addr % 0x80 + 0x80, value)
  }

  function Frame(op: BusOp): SpiFrame
  {
    match op
    case RegRead(a) => ReadFrame(a)
    case RegWrite(a, v) => WriteFrame(a, v)
  }

  /** What the transceiver makes of a frame: the top bit selects write, the low
      seven bits are the register address. */
  function Decode(f: SpiFrame): (op: BusOp)
    ensures op.addr < REGISTER_COUNT
  {
    if f.header >= 0x80 then RegWrite(f.header - 0x80, f.data) else RegRead(f.header)
  }

  /** The transceiver decodes every frame back to the access the driver issued,
      on the 7-bit address: only the address bit 7 is lost. */
  lemma FrameRoundTrip(op: BusOp)
    ensures Frame(op).header >= 0x80 <==> op.RegWrite?
    ensures Decode(Frame(op)) == (match op
                                  case RegRead(a) => RegRead(a % 0x80)
                                  case RegWrite(a, v) => RegWrite(a % 0x80, v))
  {
  }

  /** Every frame whose read data byte is 0x00 is the frame of the access it
      decodes to. */
  lemma DecodeRoundTrip(f: SpiFrame)
    requires f.header < 0x80 ==> f.data == 0x00
    ensures Frame(Decode(f)) == f
  {
  }

  /** The abstract transceiver: 128 registers indexed by the 7-bit address and
      the 256-byte packet FIFO. Register REG_FIFO_ADDR_PTR is the FIFO pointer. */
  datatype Chip = Chip(regs: seq<byte>, fifo: seq<byte>)
  {
    predicate Valid()
    {
      |regs| == REGISTER_COUNT && |fifo| == FIFO_SIZE
    }

    function Reg(addr: byte): byte
      requires Valid()
    {
      regs[addr % 0x80]
    }

    function FifoPtr(): byte
      requires Valid()
    {
      regs[REG_FIFO_ADDR_PTR]
    }
  }

  /** The value a read returns. A read of REG_FIFO returns the byte under the
      FIFO pointer; any other read returns the register. */
  function ReadValue(c: Chip, addr: byte): byte
    requires c.Valid()
  {
    if addr % 0x80 == REG_FIFO then c.fifo[c.FifoPtr()] else c.Reg(addr)
  }

  /** The effect of one access on the transceiver. A FIFO read or write moves the
      8-bit FIFO pointer on by one; a write to REG_IRQ_FLAGS clears the flags
      whose bits are set in the value (write-one-to-clear); any other write
      stores the value. */
  function Apply(c: Chip, op: BusOp): (c': Chip)
    requires c.Valid()
    ensures c'.Valid()
    ensures op.RegRead? && op.addr % 0x80 != REG_FIFO ==> c' == c
    ensures forall a: byte ::
              a % 0x80 != op.addr % 0x80 && a % 0x80 != REG_FIFO_ADDR_PTR ==> c'.Reg(a) == c.Reg(a)
  {
    var a := op.addr % 0x80;
    var ptr := c.FifoPtr();
    var next := ToByte(ptr + 1);
    match op
    case RegRead(_) =>
      if a == REG_FIFO then c.(regs := c.regs[REG_FIFO_ADDR_PTR := next]) else c
    case RegWrite(_, v) =>
      if a == REG_FIFO then
        Chip(c.regs[REG_FIFO_ADDR_PTR := next], c.fifo[ptr := v])
      else if a == REG_IRQ_FLAGS then
        c.(regs := c.regs[a := ClearBits(c.regs[a], v)])
      else
        c.(regs := c.regs[a := v])
  }

  /** The transceiver after a whole sequence of accesses. */
  function Replay(c: Chip, ops: seq<BusOp>): (c': Chip)
    requires c.Valid()
    ensures c'.Valid()
    decreases |ops|
  {
    if |ops| == 0 then c else Apply(Replay(c, ops[..|ops| - 1]), ops[|ops| - 1])
  }
}

=== FILE: registers.dfy ===
/** Register addresses and register values of the SX1272/SX1276 LoRa
    transceivers, as used by the forwarder. */
module Registers {

  /** The two silicon variants the forwarder drives. */
  datatype Variant = SX1272 | SX1276

  const REG_FIFO: int := 0x00
  const REG_OPMODE: int := 0x01
  const REG_FRF_MSB: int := 0x06
  const REG_FRF_MID: int := 0x07
  const REG_FRF_LSB: int := 0x08
  const REG_LNA: int := 0x0C
  const REG_FIFO_ADDR_PTR: int := 0x0D
  const REG_FIFO_RX_BASE_AD: int := 0x0F
  const REG_FIFO_RX_CURRENT_ADDR: int := 0x10
  const REG_IRQ_FLAGS: int := 0x12
  const REG_RX_NB_BYTES: int := 0x13
  const REG_PKT_SNR_VALUE: int := 0x19
  const REG_PKT_RSSI_VALUE: int := 0x1A
  const REG_MODEM_CONFIG: int := 0x1D
  const REG_MODEM_CONFIG2: int := 0x1E
  const REG_SYMB_TIMEOUT_LSB: int := 0x1F
  const REG_PAYLOAD_LENGTH: int := 0x22
  const REG_MAX_PAYLOAD_LENGTH: int := 0x23
  const REG_HOP_PERIOD: int := 0x24
  const REG_MODEM_CONFIG3: int := 0x26
  const REG_SYNC_WORD: int := 0x39
  const REG_VERSION: int := 0x42

  const SX72_MODE_SLEEP: int := 0x80
  const SX72_MODE_RX_CONTINUOS: int := 0x85

  const LNA_MAX_GAIN: int := 0x23
  const PAYLOAD_LENGTH: int := 0x40
  const LORAWAN_PUBLIC_SYNC_WORD: int := 0x34

  /** IRQ flag bits: RxDone is bit 6 (mask 0x40), PayloadCrcError is bit 5 (mask 0x20). */
  const IRQ_RX_DONE_MASK: int := 0x40
  const IRQ_PAYLOAD_CRC_ERROR_MASK: int := 0x20
  const IRQ_PAYLOAD_CRC_ERROR_BIT: nat := 5

  /** Version register signatures of the two silicon variants. */
  const SX1272_VERSION: int := 0x22
  const SX1276_VERSION: int := 0x12

  /** Frequency-word bytes for 868.1 MHz. */
  const FRF_MSB: int := 0xD9
  const FRF_MID: int := 0x06
  const FRF_LSB: int := 0x66

  /** The register address space seen through the 7-bit address field. */
  const REGISTER_COUNT: int := 0x80
  /** Size of the transceiver's packet FIFO, addressed by an 8-bit pointer. */
  const FIFO_SIZE: int := 0x100
}

=== FILE: setup.dfy ===
/** SetupLoRa: chip detection and the register writes that tune the
    transceiver and leave it in continuous receive. */
module Setup {
  import opened Bytes
  import opened Wrappers
  import opened Registers
  import opened RegisterBus

  /** Pin numbers from the configuration; 0xFF marks a pin left unset. */
  datatype Pins = Pins(nss: int, dio0: int, rst: int)

  const PIN_UNSET: int := 0xFF

  /** What the transceiver answers during setup: the version register before
      and after the second reset pulse, and the receive-buffer base address. */
  datatype Probe = Probe(firstVersion: byte, secondVersion: byte, rxBaseAddr: byte)

  datatype SetupError = BadPinConfiguration | UnrecognizedTransceiver(version: byte)

  /** A configured transceiver: its variant and the register writes issued, in order. */
  datatype Configured = Configured(variant: Variant, writes: seq<BusOp>)

  /** Crystal frequency and the 2^19 step of the frequency synthesizer. */
  const FXOSC: nat := 32000000
  const FRF_SCALE: nat := 0x80000
  const FRF_MODULUS: nat := 0x100_0000

  /** `((uint64_t)freq << 19) / 32000000`: the frequency word, truncated, never rounded. */
  function FrequencyWord(freq: uint32): (frf: nat)
    ensures frf * FXOSC <= freq * FRF_SCALE < (frf + 1) * FXOSC
  {
    freq * FRF_SCALE / FXOSC
  }

  /** The three bytes `(uint8_t)(frf >> 16)`, `(uint8_t)(frf >> 8)`, `(uint8_t)frf`. */
  function FrequencyWrites(frf: nat): (w: seq<BusOp>)
    ensures |w| == 3
    ensures w[0].RegWrite? && w[0].addr == REG_FRF_MSB
    ensures w[1].RegWrite? && w[1].addr == REG_FRF_MID
    ensures w[2].RegWrite? && w[2].addr == REG_FRF_LSB
    ensures w[0].value * 0x10000 + w[1].value * 0x100 + w[2].value == frf % FRF_MODULUS
  {
    FrfBytesRecompose(frf);
    [RegWrite(REG_FRF_MSB, ToByte(frf / 0x10000)),
     RegWrite(REG_FRF_MID, ToByte(frf / 0x100)),
     RegWrite(REG_FRF_LSB, ToByte(frf))]
  }

  lemma FrfBytesRecompose(frf: nat)
    ensures ToByte(frf / 0x10000) * 0x10000 + ToByte(frf / 0x100) * 0x100 + ToByte(frf)
            == frf % FRF_MODULUS
  {
    var hi := frf / 0x100;
    assert frf == hi * 0x100 + frf % 0x100;
    assert hi == (hi / 0x100) * 0x100 + hi % 0x100;
    var top := hi / 0x100;
    assert top == frf / 0x10000;
    assert top == (top / 0x100) * 0x100 + top % 0x100;
    assert top / 0x100 == frf / FRF_MODULUS;
    assert frf == (frf / FRF_MODULUS) * FRF_MODULUS
                  + ((top % 0x100) * 0x10000 + (hi % 0x100) * 0x100 + frf % 0x100);
  }

  /** Chip detection: version 0x22 on the first read is an SX1272; otherwise
      the reset line is pulsed again and 0x12 on the second read is an SX1276;
      any other answer is fatal. An unset NSS or DIO0 pin is fatal first. */
  function Detect(pins: Pins, probe: Probe): (r: Result<Variant, SetupError>)
    ensures pins.nss == PIN_UNSET || pins.dio0 == PIN_UNSET <==> r == Failure(BadPinConfiguration)
    ensures r == Success(SX1272) <==>
              pins.nss != PIN_UNSET && pins.dio0 != PIN_UNSET && probe.firstVersion == SX1272_VERSION
    ensures r == Success(SX1276) <==>
              pins.nss != PIN_UNSET && pins.dio0 != PIN_UNSET
              && probe.firstVersion != SX1272_VERSION && probe.secondVersion == SX1276_VERSION
    ensures r.Failure? && r.error.UnrecognizedTransceiver? ==> r.error.version == probe.secondVersion
  {
    if pins.nss == PIN_UNSET || pins.dio0 == PIN_UNSET then Failure(BadPinConfiguration)
    else if probe.firstVersion == SX1272_VERSION then Success(SX1272)
    else if probe.secondVersion == SX1276_VERSION then Success(SX1276)
    else Failure(UnrecognizedTransceiver(probe.secondVersion))
  }

  /** Spreading factors 11 and 12 require the low-data-rate-optimize bit. */
  predicate NeedsLowDataRateOptimize(sf: uint32)
  {
    sf == 11 || sf == 12
  }

  /** `(sf << 4) | 0x04` as written to REG_MODEM_CONFIG2 through a `uint8_t`. */
  function ModemConfig2(sf: uint32): byte
  {
    ToByte(sf * 0x10 + 0x04)
  }

  /** The variant-specific modem configuration writes. */
  function ModemWrites(variant: Variant, sf: uint32): (w: seq<BusOp>)
    ensures |w| == (if variant == SX1272 then 2 else 3)
    ensures forall x :: x in w ==>
              x.RegWrite? && x.addr in {REG_MODEM_CONFIG, REG_MODEM_CONFIG2, REG_MODEM_CONFIG3}
    ensures w[|w| - 1] == RegWrite(REG_MODEM_CONFIG2, ModemConfig2(sf))
  {
    match variant
    case SX1272 =>
      [RegWrite(REG_MODEM_CONFIG, if NeedsLowDataRateOptimize(sf) then 0x0B else 0x0A),
       RegWrite(REG_MODEM_CONFIG2, ModemConfig2(sf))]
    case SX1276 =>
      [RegWrite(REG_MODEM_CONFIG3, if NeedsLowDataRateOptimize(sf) then 0x0C else 0x04),
       RegWrite(REG_MODEM_CONFIG, 0x72),
       RegWrite(REG_MODEM_CONFIG2, ModemConfig2(sf))]
  }

  /** Shorter symbol timeout for SF10, SF11 and SF12. */
  function SymbolTimeout(sf: uint32): (t: byte)
    ensures t == 0x05 || t == 0x08
    ensures t == 0x05 <==> 10 <= sf <= 12
  {
    if sf == 10 || sf == 11 || sf == 12 then 0x05 else 0x08
  }

  /** Sleep mode, the carrier frequency and the public sync word. */
  function ConfigHead(freq: uint32): (h: seq<BusOp>)
    ensures |h| == 5
    ensures h[0] == RegWrite(REG_OPMODE, SX72_MODE_SLEEP)
    ensures h[1..4] == FrequencyWrites(FrequencyWord(freq))
    ensures h[4] == RegWrite(REG_SYNC_WORD, LORAWAN_PUBLIC_SYNC_WORD)
  {
    [RegWrite(REG_OPMODE, SX72_MODE_SLEEP)]
    + FrequencyWrites(FrequencyWord(freq))
    + [RegWrite(REG_SYNC_WORD, LORAWAN_PUBLIC_SYNC_WORD)]
  }

  /** Timeouts and payload limits, the receive pointer, then LNA gain and
      continuous receive. */
  function ConfigTail(sf: uint32, rxBaseAddr: byte): (t: seq<BusOp>)
    ensures |t| == 7
    ensures t[0] == RegWrite(REG_SYMB_TIMEOUT_LSB, SymbolTimeout(sf))
    ensures t[1] == RegWrite(REG_MAX_PAYLOAD_LENGTH, 0x80)
    ensures t[2] == RegWrite(REG_PAYLOAD_LENGTH, 0x40)
    ensures t[3] == RegWrite(REG_HOP_PERIOD, 0xFF)
    ensures t[4] == RegWrite(REG_FIFO_ADDR_PTR, rxBaseAddr)
    ensures t[5..] == [RegWrite(REG_LNA, LNA_MAX_GAIN), RegWrite(REG_OPMODE, SX72_MODE_RX_CONTINUOS)]
  {
    [RegWrite(REG_SYMB_TIMEOUT_LSB, SymbolTimeout(sf)),
     RegWrite(REG_MAX_PAYLOAD_LENGTH, 0x80),
     RegWrite(REG_PAYLOAD_LENGTH, PAYLOAD_LENGTH),
     RegWrite(REG_HOP_PERIOD, 0xFF),
     RegWrite(REG_FIFO_ADDR_PTR, rxBaseAddr),
     RegWrite(REG_LNA, LNA_MAX_GAIN),
     RegWrite(REG_OPMODE, SX72_MODE_RX_CONTINUOS)]
  }

  /** The full write sequence once the variant is known. */
  function ConfigWrites(variant: Variant, freq: uint32, sf: uint32, rxBaseAddr: byte): seq<BusOp>
  {
    ConfigHead(freq) + ModemWrites(variant, sf) + ConfigTail(sf, rxBaseAddr)
  }

  /** The chip is put to sleep first, no other mode change happens while it is
      configured, and maximum LNA gain then continuous receive come last. */
  predicate SleepThenReceive(w: seq<BusOp>)
  {
    && |w| >= 3
    && (forall i :: 0 <= i < |w| ==> w[i].RegWrite?)
    && w[0] == RegWrite(REG_OPMODE, SX72_MODE_SLEEP)
    && (forall i :: 0 < i < |w| - 1 ==> w[i].addr != REG_OPMODE)
    && w[|w| - 2] == RegWrite(REG_LNA, LNA_MAX_GAIN)
    && w[|w| - 1] == RegWrite(REG_OPMODE, SX72_MODE_RX_CONTINUOS)
  }

  /** SetupLoRa. A fatal result issues no configuration write at all. */
  function SetupLoRa(pins: Pins, probe: Probe, freq: uint32, sf: uint32): (r: Result<Configured, SetupError>)
    ensures r.Success? <==> Detect(pins, probe).Success?
    ensures r.Failure? ==> r.error == Detect(pins, probe).error
    ensures r.Success? ==> r.value.variant == Detect(pins, probe).value
    ensures r.Success? ==> SleepThenReceive(r.value.writes)
    ensures r.Success? ==>
              var w := r.value.writes;
              && w[1].addr == REG_FRF_MSB && w[2].addr == REG_FRF_MID && w[3].addr == REG_FRF_LSB
              && w[1].value * 0x10000 + w[2].value * 0x100 + w[3].value == FrequencyWord(freq) % FRF_MODULUS
    ensures r.Success? ==> r.value.writes[4] == RegWrite(REG_SYNC_WORD, LORAWAN_PUBLIC_SYNC_WORD)
    ensures r.Success? ==> RegWrite(REG_FIFO_ADDR_PTR, probe.rxBaseAddr) in r.value.writes
    ensures r.Success? ==> |r.value.writes| == (if r.value.variant == SX1272 then 14 else 15)
  {
    match Detect(pins, probe)
    case Failure(e) => Failure(e)
    case Success(variant) =>
      ConfigWritesShape(variant, freq, sf, probe.rxBaseAddr);
      ConfigWritesModes(variant, freq, sf, probe.rxBaseAddr);
      Success(Configured(variant, ConfigWrites(variant, freq, sf, probe.rxBaseAddr)))
  }

  /** Where the frequency, the sync word and the receive pointer sit in the
      write sequence, and how long it is per variant. */
  lemma ConfigWritesShape(variant: Variant, freq: uint32, sf: uint32, rxBaseAddr: byte)
    ensures var w := ConfigWrites(variant, freq, sf, rxBaseAddr);
            && |w| == (if variant == SX1272 then 14 else 15)
            && w[1..4] == FrequencyWrites(FrequencyWord(freq))
            && w[4] == RegWrite(REG_SYNC_WORD, LORAWAN_PUBLIC_SYNC_WORD)
            && RegWrite(REG_FIFO_ADDR_PTR, rxBaseAddr) in w
  {
    var h, t := ConfigHead(freq), ConfigTail(sf, rxBaseAddr);
    var w := ConfigWrites(variant, freq, sf, rxBaseAddr);
    assert w == h + (ModemWrites(variant, sf) + t);
    assert w[1..4] == h[1..4];
    assert t[4] in w;
  }

  /** The mode writes of the sequence: sleep first, LNA gain then continuous
      receive last, and no mode change in between. */
  lemma ConfigWritesModes(variant: Variant, freq: uint32, sf: uint32, rxBaseAddr: byte)
    ensures SleepThenReceive(ConfigWrites(variant, freq, sf, rxBaseAddr))
  {
    var h, m, t := ConfigHead(freq), ModemWrites(variant, sf), ConfigTail(sf, rxBaseAddr);
    var w := ConfigWrites(variant, freq, sf, rxBaseAddr);
    HeadTailAddresses(freq, sf, rxBaseAddr);
    assert w == h + m + t;
    assert w[|w| - 2..] == t[5..];
    forall i | 0 <= i < |w|
      ensures w[i].RegWrite?
      ensures 0 < i < |w| - 1 ==> w[i].addr != REG_OPMODE
    {
      if i < |h| {
        assert w[i] == h[i] && h[i] in h;
      } else if i < |h| + |m| {
        assert w[i] == m[i - |h|] && m[i - |h|] in m;
      } else {
        assert w[i] == t[i - |h| - |m|] && t[i - |h| - |m|] in t;
      }
    }
  }

  /** Every register a configuration write may address. */
  const ConfigRegisters: set<int> :=
    {REG_OPMODE, REG_FRF_MSB, REG_FRF_MID, REG_FRF_LSB, REG_SYNC_WORD,
     REG_MODEM_CONFIG, REG_MODEM_CONFIG2, REG_MODEM_CONFIG3,
     REG_SYMB_TIMEOUT_LSB, REG_MAX_PAYLOAD_LENGTH, REG_PAYLOAD_LENGTH,
     REG_HOP_PERIOD, REG_FIFO_ADDR_PTR, REG_LNA}

  /** The registers the head and the tail of the configuration touch; none
      of them is a modem configuration register. */
  lemma HeadTailAddresses(freq: uint32, sf: uint32, rxBaseAddr: byte)
    ensures forall x :: x in ConfigHead(freq) ==>
              x.RegWrite? && x.addr in {REG_OPMODE, REG_FRF_MSB, REG_FRF_MID, REG_FRF_LSB, REG_SYNC_WORD}
    ensures forall x :: x in ConfigTail(sf, rxBaseAddr) ==>
              x.RegWrite? && x.addr in {REG_SYMB_TIMEOUT_LSB, REG_MAX_PAYLOAD_LENGTH, REG_PAYLOAD_LENGTH,
                                        REG_HOP_PERIOD, REG_FIFO_ADDR_PTR, REG_LNA, REG_OPMODE}
  {
  }

  /** A write to a modem configuration register issued during a successful
      setup is one of the variant's modem writes. */
  lemma ModemWriteIn(pins: Pins, probe: Probe, freq: uint32, sf: uint32, x: BusOp)
    requires SetupLoRa(pins, probe, freq, sf).Success?
    requires x.RegWrite? && x.addr in {REG_MODEM_CONFIG, REG_MODEM_CONFIG2, REG_MODEM_CONFIG3}
    ensures var c := SetupLoRa(pins, probe, freq, sf).value;
            x in c.writes <==> x in ModemWrites(c.variant, sf)
  {
    var c := SetupLoRa(pins, probe, freq, sf).value;
    assert c.writes == ConfigHead(freq) + ModemWrites(c.variant, sf) + ConfigTail(sf, probe.rxBaseAddr);
    HeadTailAddresses(freq, sf, probe.rxBaseAddr);
  }

  /** The low-data-rate-optimize bit as each variant lays it out: bit 0 of
      REG_MODEM_CONFIG on the SX1272, bit 3 of REG_MODEM_CONFIG3 on the SX1276. */
  predicate LowDataRateOptimizeSet(variant: Variant, w: seq<BusOp>)
  {
    match variant
    case SX1272 => exists v: byte :: RegWrite(REG_MODEM_CONFIG, v) in w && Bit(v, 0)
    case SX1276 => exists v: byte :: RegWrite(REG_MODEM_CONFIG3, v) in w && Bit(v, 3)
  }

  /** On either variant the configuration sets the low-data-rate-optimize bit
      if and only if the spreading factor is 11 or 12. */
  lemma LowDataRateOptimizeIff(pins: Pins, probe: Probe, freq: uint32, sf: uint32)
    requires SetupLoRa(pins, probe, freq, sf).Success?
    ensures var c := SetupLoRa(pins, probe, freq, sf).value;
            LowDataRateOptimizeSet(c.variant, c.writes) <==> NeedsLowDataRateOptimize(sf)
  {
    var c := SetupLoRa(pins, probe, freq, sf).value;
    var ldro := NeedsLowDataRateOptimize(sf);
    match c.variant
    case SX1272 =>
      var v: byte := if ldro then 0x0B else 0x0A;
      forall u: byte
        ensures RegWrite(REG_MODEM_CONFIG, u) in c.writes <==> u == v
      {
        ModemWriteIn(pins, probe, freq, sf, RegWrite(REG_MODEM_CONFIG, u));
      }
      assert Bit(0x0B, 0) && !Bit(0x0A, 0);
    case SX1276 =>
      var v: byte := if ldro then 0x0C else 0x04;
      forall u: byte
        ensures RegWrite(REG_MODEM_CONFIG3, u) in c.writes <==> u == v
      {
        ModemWriteIn(pins, probe, freq, sf, RegWrite(REG_MODEM_CONFIG3, u));
      }
      assert Bit(0x0C, 3) && !Bit(0x04, 3) by {
        assert Bit(0x0C, 3) == Bit(0x06, 2) == Bit(0x03, 1) == Bit(0x01, 0);
        assert Bit(0x04, 3) == Bit(0x02, 2) == Bit(0x01, 1) == Bit(0x00, 0);
      }
  }

  /** SX1272: REG_MODEM_CONFIG is 0x0B at SF11 and SF12 and 0x0A otherwise. */
  lemma ModemConfigSx1272(pins: Pins, probe: Probe, freq: uint32, sf: uint32)
    requires SetupLoRa(pins, probe, freq, sf).Success?
    requires SetupLoRa(pins, probe, freq, sf).value.variant == SX1272
    ensures var w := SetupLoRa(pins, probe, freq, sf).value.writes;
            && (RegWrite(REG_MODEM_CONFIG, 0x0B) in w <==> sf == 11 || sf == 12)
            && (RegWrite(REG_MODEM_CONFIG, 0x0A) in w <==> sf != 11 && sf != 12)
            && RegWrite(REG_MODEM_CONFIG2, ModemConfig2(sf)) in w
  {
    ModemWriteIn(pins, probe, freq, sf, RegWrite(REG_MODEM_CONFIG, 0x0B));
    ModemWriteIn(pins, probe, freq, sf, RegWrite(REG_MODEM_CONFIG, 0x0A));
    ModemWriteIn(pins, probe, freq, sf, RegWrite(REG_MODEM_CONFIG2, ModemConfig2(sf)));
  }

  /** SX1276: REG_MODEM_CONFIG3 is 0x0C at SF11 and SF12 and 0x04 otherwise;
      REG_MODEM_CONFIG is the fixed 0x72. */
  lemma ModemConfigSx1276(pins: Pins, probe: Probe, freq: uint32, sf: uint32)
    requires SetupLoRa(pins, probe, freq, sf).Success?
    requires SetupLoRa(pins, probe, freq, sf).value.variant == SX1276
    ensures var w := SetupLoRa(pins, probe, freq, sf).value.writes;
            && (RegWrite(REG_MODEM_CONFIG3, 0x0C) in w <==> sf == 11 || sf == 12)
            && (RegWrite(REG_MODEM_CONFIG3, 0x04) in w <==> sf != 11 && sf != 12)
            && RegWrite(REG_MODEM_CONFIG, 0x72) in w
            && RegWrite(REG_MODEM_CONFIG2, ModemConfig2(sf)) in w
  {
    ModemWriteIn(pins, probe, freq, sf, RegWrite(REG_MODEM_CONFIG3, 0x0C));
    ModemWriteIn(pins, probe, freq, sf, RegWrite(REG_MODEM_CONFIG3, 0x04));
    ModemWriteIn(pins, probe, freq, sf, RegWrite(REG_MODEM_CONFIG, 0x72));
    ModemWriteIn(pins, probe, freq, sf, RegWrite(REG_MODEM_CONFIG2, ModemConfig2(sf)));
  }

  /** REG_SYMB_TIMEOUT_LSB is 0x05 exactly for SF10, SF11 and SF12, 0x08 otherwise. */
  lemma SymbolTimeoutBySf(pins: Pins, probe: Probe, freq: uint32, sf: uint32)
    requires SetupLoRa(pins, probe, freq, sf).Success?
    ensures var w := SetupLoRa(pins, probe, freq, sf).value.writes;
            && (RegWrite(REG_SYMB_TIMEOUT_LSB, 0x05) in w <==> 10 <= sf <= 12)
            && (RegWrite(REG_SYMB_TIMEOUT_LSB, 0x08) in w <==> !(10 <= sf <= 12))
  {
    var t := ConfigTail(sf, probe.rxBaseAddr);
    assert t[0] == RegWrite(REG_SYMB_TIMEOUT_LSB, SymbolTimeout(sf));
    assert forall x :: x in t[1..] ==> x.addr != REG_SYMB_TIMEOUT_LSB;
    SymbolTimeoutWriteIn(pins, probe, freq, sf, RegWrite(REG_SYMB_TIMEOUT_LSB, 0x05));
    SymbolTimeoutWriteIn(pins, probe, freq, sf, RegWrite(REG_SYMB_TIMEOUT_LSB, 0x08));
    assert t == [t[0]] + t[1..];
  }

  /** Every write of a successful setup goes to one of the registers the
      configuration names; nothing else on the chip is touched. */
  lemma WritesOnlyConfigRegisters(pins: Pins, probe: Probe, freq: uint32, sf: uint32)
    requires SetupLoRa(pins, probe, freq, sf).Success?
    ensures forall x :: x in SetupLoRa(pins, probe, freq, sf).value.writes ==>
              x.RegWrite? && x.addr in ConfigRegisters
  {
    var c := SetupLoRa(pins, probe, freq, sf).value;
    assert c.writes == ConfigHead(freq) + ModemWrites(c.variant, sf) + ConfigTail(sf, probe.rxBaseAddr);
    HeadTailAddresses(freq, sf, probe.rxBaseAddr);
  }

  /** The payload limits and the hop period: REG_MAX_PAYLOAD_LENGTH gets 0x80,
      REG_PAYLOAD_LENGTH 0x40 and REG_HOP_PERIOD 0xFF, and no other value is
      ever written to those three registers. */
  lemma PayloadAndHopWrites(pins: Pins, probe: Probe, freq: uint32, sf: uint32, x: BusOp)
    requires SetupLoRa(pins, probe, freq, sf).Success?
    requires x.RegWrite? && x.addr in {REG_MAX_PAYLOAD_LENGTH, REG_PAYLOAD_LENGTH, REG_HOP_PERIOD}
    ensures x in SetupLoRa(pins, probe, freq, sf).value.writes <==>
              x in [RegWrite(REG_MAX_PAYLOAD_LENGTH, 0x80), RegWrite(REG_PAYLOAD_LENGTH, 0x40),
                    RegWrite(REG_HOP_PERIOD, 0xFF)]
  {
    var t := ConfigTail(sf, probe.rxBaseAddr);
    assert t == [t[0]] + [t[1], t[2], t[3]] + t[4..];
    SymbolTimeoutWriteIn(pins, probe, freq, sf, x);
  }

  /** A write to REG_SYMB_TIMEOUT_LSB, REG_MAX_PAYLOAD_LENGTH,
      REG_PAYLOAD_LENGTH or REG_HOP_PERIOD issued during a successful setup is
      part of the common tail. */
  lemma SymbolTimeoutWriteIn(pins: Pins, probe: Probe, freq: uint32, sf: uint32, x: BusOp)
    requires SetupLoRa(pins, probe, freq, sf).Success?
    requires x.RegWrite?
    requires x.addr in {REG_SYMB_TIMEOUT_LSB, REG_MAX_PAYLOAD_LENGTH, REG_PAYLOAD_LENGTH, REG_HOP_PERIOD}
    ensures x in SetupLoRa(pins, probe, freq, sf).value.writes <==> x in ConfigTail(sf, probe.rxBaseAddr)
  {
  }

  /** For a valid spreading factor the upper nibble of REG_MODEM_CONFIG2 is the
      spreading factor and the lower nibble is the fixed 0x04 bit. */
  lemma ModemConfig2Fields(sf: uint32)
    requires 7 <= sf <= 12
    ensures ModemConfig2(sf) / 0x10 == sf && ModemConfig2(sf) % 0x10 == 0x04
  {
  }

  /** At 868.1 MHz the frequency bytes are the FRF_MSB/MID/LSB constants. */
  lemma Frequency868(pins: Pins, probe: Probe, sf: uint32)
    requires SetupLoRa(pins, probe, 868100000, sf).Success?
    ensures SetupLoRa(pins, probe, 868100000, sf).value.writes[1..4]
            == [RegWrite(REG_FRF_MSB, FRF_MSB), RegWrite(REG_FRF_MID, FRF_MID), RegWrite(REG_FRF_LSB, FRF_LSB)]
  {
    var c := SetupLoRa(pins, probe, 868100000, sf).value;
    var h := ConfigHead(868100000);
    assert c.writes == h + (ModemWrites(c.variant, sf) + ConfigTail(sf, probe.rxBaseAddr));
    assert c.writes[1..4] == h[1..4] == FrequencyWrites(FrequencyWord(868100000));
    FrequencyBytes868();
  }

  lemma FrequencyBytes868()
    ensures FrequencyWrites(FrequencyWord(868100000))
            == [RegWrite(REG_FRF_MSB, FRF_MSB), RegWrite(REG_FRF_MID, FRF_MID), RegWrite(REG_FRF_LSB, FRF_LSB)]
  {
  }

  /** When the first version read identifies an SX1272 the second read is never
      consulted. */
  lemma SecondProbeOnlyAfterMismatch(pins: Pins, a: byte, b: byte, rxBase: byte, freq: uint32, sf: uint32)
    ensures SetupLoRa(pins, Probe(SX1272_VERSION, a, rxBase), freq, sf)
            == SetupLoRa(pins, Probe(SX1272_VERSION, b, rxBase), freq, sf)
  {
  }
}

=== FILE: transport.dfy ===
/** SendUdp: one datagram to every enabled server, in configuration order.
    Name resolution and the socket are the environment, passed in as a
    `Network`; either failing ends the process. */
module Transport {
  import opened Bytes
  import opened Wrappers

  datatype Server = Server(address: string, port: uint16, enabled: bool)

  /** The process-wide `sockaddr_in` the datagrams are sent to. */
  datatype SockAddr = SockAddr(ip: uint32, port: uint16)

  /** `getaddrinfo` (None on error, else the IPv4 results in order) and
      `sendto` (false when it returns -1). */
  datatype Network = Network(resolve: string -> Option<seq<uint32>>, accepts: (SockAddr, seq<byte>) -> bool)

  datatype Datagram = Datagram(to: SockAddr, bytes: seq<byte>)

  datatype SendError = ResolveFailed(host: string) | SendFailed(to: SockAddr)

  /** What one SendUdp call did: the host names it looked up, the datagrams it
      sent, the socket address it leaves behind, and the fatal error that
      stopped it, if any. */
  datatype SendOutcome = SendOutcome(lookups: seq<string>, sent: seq<Datagram>, target: SockAddr, error: Option<SendError>)

  function EnabledServers(servers: seq<Server>): (e: seq<Server>)
    ensures |e| <= |servers|
    ensures forall i :: 0 <= i < |e| ==> e[i].enabled && e[i] in servers
    ensures forall s :: s in servers && s.enabled ==> s in e
  {
    if |servers| == 0 then []
    else if servers[0].enabled then [servers[0]] + EnabledServers(servers[1..])
    else EnabledServers(servers[1..])
  }

  /** Filtering keeps configuration order: the enabled servers of two lists
      joined are those of the first followed by those of the second. */
  lemma {:induction false} EnabledServersAppend(a: seq<Server>, b: seq<Server>)
    ensures EnabledServers(a + b) == EnabledServers(a) + EnabledServers(b)
  {
    if |a| > 0 {
      assert (a + b)[1..] == a[1..] + b;
      EnabledServersAppend(a[1..], b);
    } else {
      assert a + b == b;
    }
  }

  function Hosts(servers: seq<Server>): (h: seq<string>)
    ensures |h| == |servers|
    ensures forall i :: 0 <= i < |h| ==> h[i] == servers[i].address
  {
    if |servers| == 0 then [] else [servers[0].address] + Hosts(servers[1..])
  }

  /** SolveHostname: the port is set first; the address becomes the last
      `getaddrinfo` result, and stays as it was when the list is empty. */
  function Resolved(target: SockAddr, s: Server, addrs: seq<uint32>): (r: SockAddr)
    ensures r.port == s.port
    ensures |addrs| > 0 ==> r.ip == addrs[|addrs| - 1]
    ensures |addrs| == 0 ==> r.ip == target.ip
  {
    var t := target.(port := s.port);
    if |addrs| > 0 then t.(ip := addrs[|addrs| - 1]) else t
  }

  function SendUdp(servers: seq<Server>, msg: seq<byte>, target: SockAddr, net: Network): (r: SendOutcome)
    ensures |r.sent| <= |r.lookups|
    ensures forall i :: 0 <= i < |r.sent| ==> r.sent[i].bytes == msg
  {
    if |servers| == 0 then SendOutcome([], [], target, None)
    else
      var s := servers[0];
      if !s.enabled then SendUdp(servers[1..], msg, target, net)
      else
        match net.resolve(s.address)
        case None => SendOutcome([s.address], [], target.(port := s.port), Some(ResolveFailed(s.address)))
        case Some(addrs) =>
          var t := Resolved(target, s, addrs);
          if !net.accepts(t, msg) then SendOutcome([s.address], [], t, Some(SendFailed(t)))
          else
            var rest := SendUdp(servers[1..], msg, t, net);
            SendOutcome([s.address] + rest.lookups, [Datagram(t, msg)] + rest.sent, rest.target, rest.error)
  }

  /** Only enabled servers are looked up, in list order. A call that reports
      no error has looked up and served every enabled server; a call that
      fails stops at the server it was serving. */
  lemma {:induction false} SendLookups(servers: seq<Server>, msg: seq<byte>, target: SockAddr, net: Network)
    ensures var r := SendUdp(servers, msg, target, net);
            var e := EnabledServers(servers);
            && r.lookups <= Hosts(e)
            && (r.error.None? ==> r.lookups == Hosts(e) && |r.sent| == |r.lookups|)
            && (r.error.Some? ==> |r.sent| == |r.lookups| - 1)
  {
    if |servers| == 0 {
      return;
    }
    var s := servers[0];
    var e := EnabledServers(servers);
    var e' := EnabledServers(servers[1..]);
    if !s.enabled {
      assert e == e';
      SendLookups(servers[1..], msg, target, net);
      return;
    }
    assert e == [s] + e';
    assert Hosts(e) == [s.address] + Hosts(e');
    if net.resolve(s.address).None? {
      return;
    }
    var t := Resolved(target, s, net.resolve(s.address).value);
    if !net.accepts(t, msg) {
      return;
    }
    var rest := SendUdp(servers[1..], msg, t, net);
    var r := SendUdp(servers, msg, target, net);
    assert r.lookups == [s.address] + rest.lookups;
    assert r.sent == [Datagram(t, msg)] + rest.sent;
    SendLookups(servers[1..], msg, t, net);
  }

  /** The destination port of each datagram. */
  function Ports(d: seq<Datagram>): (p: seq<uint16>)
    ensures |p| == |d| && forall i :: 0 <= i < |d| ==> p[i] == d[i].to.port
  {
    if |d| == 0 then [] else [d[0].to.port] + Ports(d[1..])
  }

  /** The configured port of each server. */
  function ServerPorts(servers: seq<Server>): (p: seq<uint16>)
    ensures |p| == |servers| && forall i :: 0 <= i < |servers| ==> p[i] == servers[i].port
  {
    if |servers| == 0 then [] else [servers[0].port] + ServerPorts(servers[1..])
  }

  /** Each datagram goes to the port of the enabled server at the same position. */
  lemma {:induction false} SendPorts(servers: seq<Server>, msg: seq<byte>, target: SockAddr, net: Network)
    ensures Ports(SendUdp(servers, msg, target, net).sent) <= ServerPorts(EnabledServers(servers))
  {
    if |servers| == 0 {
      return;
    }
    var s := servers[0];
    var e := EnabledServers(servers);
    var e' := EnabledServers(servers[1..]);
    if !s.enabled {
      assert e == e';
      SendPorts(servers[1..], msg, target, net);
      return;
    }
    assert e == [s] + e';
    assert ServerPorts(e) == [s.port] + ServerPorts(e');
    if net.resolve(s.address).None? {
      return;
    }
    var t := Resolved(target, s, net.resolve(s.address).value);
    if !net.accepts(t, msg) {
      return;
    }
    var rest := SendUdp(servers[1..], msg, t, net);
    var r := SendUdp(servers, msg, target, net);
    assert r.sent == [Datagram(t, msg)] + rest.sent;
    assert Ports(r.sent) == [t.port] + Ports(rest.sent);
    SendPorts(servers[1..], msg, t, net);
  }

  /** SendLookups and SendPorts together: only enabled servers are looked up,
      each datagram goes to the enabled server at its position, and an error
      stops the walk at the server being served. */
  lemma SendOnlyToEnabled(servers: seq<Server>, msg: seq<byte>, target: SockAddr, net: Network)
    ensures var r := SendUdp(servers, msg, target, net);
            var e := EnabledServers(servers);
            && r.lookups <= Hosts(e)
            && (forall i :: 0 <= i < |r.sent| ==> r.sent[i].to.port == e[i].port)
            && (r.error.None? ==> r.lookups == Hosts(e) && |r.sent| == |e|)
            && (r.error.Some? ==> |r.sent| == |r.lookups| - 1)
  {
    SendLookups(servers, msg, target, net);
    SendPorts(servers, msg, target, net);
    var r := SendUdp(servers, msg, target, net);
    var e := EnabledServers(servers);
    assert |Ports(r.sent)| <= |ServerPorts(e)|;
    forall i | 0 <= i < |r.sent|
      ensures r.sent[i].to.port == e[i].port
    {
      assert Ports(r.sent)[i] == ServerPorts(e)[i];
    }
  }

  /** Every enabled server resolves to a non-empty list and accepts the datagram. */
  predicate Reachable(servers: seq<Server>, msg: seq<byte>, net: Network)
  {
    forall s :: s in EnabledServers(servers) ==>
      && net.resolve(s.address).Some? && |net.resolve(s.address).value| > 0
      && net.accepts(Resolved(SockAddr(0, 0), s, net.resolve(s.address).value), msg)
  }

  /** The datagram each enabled server receives when all goes well. */
  function Expected(e: seq<Server>, msg: seq<byte>, net: Network): seq<Datagram>
    requires forall s :: s in e ==> net.resolve(s.address).Some? && |net.resolve(s.address).value| > 0
  {
    if |e| == 0 then []
    else [Datagram(Resolved(SockAddr(0, 0), e[0], net.resolve(e[0].address).value), msg)] + Expected(e[1..], msg, net)
  }

  /** When the network cooperates, SendUdp sends exactly one datagram to each
      enabled server, in list order, and nothing else. */
  lemma {:induction false} SendReachable(servers: seq<Server>, msg: seq<byte>, target: SockAddr, net: Network)
    requires Reachable(servers, msg, net)
    ensures var r := SendUdp(servers, msg, target, net);
            && r.error.None?
            && r.lookups == Hosts(EnabledServers(servers))
            && r.sent == Expected(EnabledServers(servers), msg, net)
  {
    if |servers| > 0 {
      var s := servers[0];
      assert Reachable(servers[1..], msg, net) by {
        forall x | x in EnabledServers(servers[1..])
          ensures x in EnabledServers(servers)
        {
          if s.enabled {
            assert EnabledServers(servers) == [s] + EnabledServers(servers[1..]);
          }
        }
      }
      if s.enabled {
        assert s in EnabledServers(servers);
        var t := Resolved(target, s, net.resolve(s.address).value);
        SendReachable(servers[1..], msg, t, net);
      } else {
        SendReachable(servers[1..], msg, target, net);
      }
    }
  }

  /** Servers A (enabled), B (disabled) and C (enabled): A and C are looked up
      and sent to, in that order; B is never looked up. */
  lemma SendExample(msg: seq<byte>, pa: uint16, pb: uint16, pc: uint16)
    ensures var net := Network(h => Some([7]), (to, m) => true);
            var r := SendUdp([Server("A", pa, true), Server("B", pb, false), Server("C", pc, true)],
                             msg, SockAddr(0, 0), net);
            && r.error.None?
            && r.lookups == ["A", "C"]
            && r.sent == [Datagram(SockAddr(7, pa), msg), Datagram(SockAddr(7, pc), msg)]
  {
    var net := Network(h => Some([7]), (to, m) => true);
    var servers := [Server("A", pa, true), Server("B", pb, false), Server("C", pc, true)];
    var tail := [Server("C", pc, true)];
    assert servers[1..][1..] == tail;
    assert tail[1..] == [];
    assert net.resolve("C") == Some([7]) && net.accepts(SockAddr(7, pc), msg);
    assert Resolved(SockAddr(7, pa), tail[0], [7]) == SockAddr(7, pc);
    assert SendUdp(tail[1..], msg, SockAddr(7, pc), net) == SendOutcome([], [], SockAddr(7, pc), None);
    var rc := SendUdp(tail, msg, SockAddr(7, pa), net);
    assert rc == SendOutcome(["C"], [Datagram(SockAddr(7, pc), msg)], SockAddr(7, pc), None);
    assert SendUdp(servers[1..], msg, SockAddr(7, pa), net) == rc;
  }
}

=== FILE: wrappers.dfy ===
/** The two wrapper types used across the model: an optional value and a
    value-or-error result. */
module Wrappers {

  datatype Option<+T> = None | Some(value: T)

  datatype Result<+R, +E> = Success(value: R) | Failure(error: E)
}
